=== FILE: README.md ===
# FarmTech Solutions: a verified model of its core logic

FarmTech Solutions is a farm-management project built in phases. This
project models the repository's own logic behind those phases. It leaves out
the screens, libraries and services around that logic. The model is written
in Dafny, as pure functions over sequences of records, and uses `real` in
place of Python floats.

- **Crop registry (phase 1).** A desktop form keeps three parallel lists:
  crop names, plot areas and the input each crop needs. A web form keeps the
  same data as a table of rows. Both compute the area as a rectangle for
  Corn and a circle for Coffee, then apply a per-crop rate. They validate
  entries, add, delete and edit rows, and save and load a CSV file.
  (Modules `CropRegistry`, `CropTable`.)
- **Reading store (phases 3 and 4).** An sqlite table of sensor readings
  seen as a state machine. The state is the database file, the table, the
  CSV export and the once-per-process initialisation flag. The store
  initialises the schema, appends readings, and fetches them newest first
  with a month bucket. (Modules `SensorStore`, `Calendar`.)
- **MQTT subscriber (phase 4).** It validates a payload before storing it.
  The fake-reading generator is modelled too. (Module `Subscriber`.)
- **Sensor dashboards (phases 3 and 4).** Monthly means, monthly irrigation
  activations, per-day readings with and without irrigation, and counts of
  readings in the ideal ranges. (Modules `SensorReport`, `Grouping`.)
- **Training-run comparison (phase 6).** The table of final metric values
  of two YOLO runs with the change between them, plus the names of the
  output files. (Module `MetricsTable`.)
- **Crop-yield analysis (phase 5).** The bookkeeping around the
  machine-learning calls:
  - choosing the cluster count;
  - flagging outliers by interquartile fences;
  - preparing the feature columns and one-hot names;
  - the "higher/lower than average" reporting rule;
  - picking the best regressor.

  (Module `CropYield`.)

`Basics` holds the shared vocabulary:
- `Option` and `Result`;
- `Ext`, a float64 quotient that can be infinite or NaN when the divisor is
  zero, as pandas and numpy produce;
- filtering, sums, means and first argmax/argmin.

Every operation carries a contract that states what it guarantees, both
when it succeeds and when it fails. Most operations also have a partner: a
lemma or a reference definition that relates them to an independent
statement of the intended behaviour, such as a round trip, an invariant
kept, counts that add up, or "nothing else changes". The table below says
which member states what.

## Model

| member | source | states |
|---|---|---|
| CropRegistry.Inputs | src/phases/v1/main.py:45-49 | The desktop rate gives an input exactly for the two valid crops: area × 200 for Corn, area × 0.5 for Coffee; any other crop gets none (Python `None`). |
| CropRegistry.PlotAreaPositive | src/phases/v1/main.py:68-72 | A rectangle (Corn) or circle (any other crop) built from positive dimensions has a positive area. |
| CropRegistry.ValidateNumericInput | src/phases/v1/main.py:197-198 | The key filter accepts a text exactly when every character is a decimal digit, which includes the empty text. |
| CropRegistry.PointAndMinusRejected | src/phases/v1/main.py:197-198 | Any text containing "." or "-" is refused by the key filter. |
| CropRegistry.ParseEntry | src/phases/v1/main.py:60-61 | `float` of a filtered entry fails only on the empty text; otherwise the value is non-negative. |
| CropRegistry.CheckEntry | src/phases/v1/main.py:54-72 | An unknown crop is rejected first. A known crop is rejected when either dimension is missing or not positive. An accepted entry has a positive area, the right shape for its crop, and its input is the crop's rate applied to that area. |
| CropRegistry.EnterData | src/phases/v1/main.py:53-79 | A rejected entry leaves all three lists unchanged. An accepted one appends exactly one element to each list: the crop, the area of its shape built from the two entered dimensions (length × width for Corn, π·length² otherwise), and that area's input. The lists stay the same length. |
| CropRegistry.FilteredEntryAccepted | src/phases/v1/main.py:54-66 | For a valid crop and two texts that passed the key filter, the add button accepts exactly when both texts are non-empty and neither is all zeros: the positivity check rejects only those texts. |
| CropRegistry.PopReversedIsKeep | src/phases/v1/main.py:105-109 | Popping distinct ascending positions in reverse order never goes out of range. It removes exactly those positions and keeps the rest in their order. |
| CropRegistry.PopAtIsKeep | src/phases/v1/main.py:107-109 | One pop at a position beyond every already-removed one is the same as adding that position to the removed set. |
| CropRegistry.KeepLength | src/phases/v1/main.py:105-109 | Removing a set of in-range positions shortens the list by the size of the set. |
| CropRegistry.DeleteData | src/phases/v1/main.py:97-111 | Without confirmation or without a selection, nothing changes. After confirmation, each list loses exactly the selected positions, the remaining entries keep their order, and the three lists stay the same length. |
| CropRegistry.DistinctSelectionSize | src/phases/v1/main.py:98-105 | A selection of distinct positions removes as many rows as it lists. |
| CropRegistry.SaveUpdates | src/phases/v1/main.py:167-189 | The save fails exactly when a dimension fails to parse (checked first) or the dialog's position is no longer in the lists; a failure writes nothing. Otherwise only the entry at that position is rewritten: the new crop, its area and its input. Lengths and all other entries are unchanged. |
| CropRegistry.DeleteThenSaveIsStale | src/phases/v1/main.py:129-181 | The edit dialog does not block the main window: deleting the last row while its dialog is open makes the dialog's save fail on the stale position. |
| CropRegistry.SaveToCsv | src/phases/v1/main.py:29-34 | The file is the header followed by exactly one line per list index. Line i + 1 holds the i-th crop, its formatted area and its input cell, empty for a `None` input. |
| CropRegistry.LoadFromCsv | src/phases/v1/main.py:17-25 | A missing file loads nothing and succeeds. A file without a header line fails. Otherwise the load succeeds exactly when every data row has three cells whose last two `float` accepts. Then the lists keep their entries as a prefix and gain, per data row in order, its crop, parsed area and parsed input. A failure names the first row that is not well formed. |
| CropRegistry.LoadRowsOutcome | src/phases/v1/main.py:21-25 | Appending the data rows succeeds exactly when every row is well formed, and otherwise stops at the first row that is not. |
| CropRegistry.LoadRowsAppends | src/phases/v1/main.py:21-25 | A successful append keeps the earlier entries and adds each row's crop, area and input after them, in row order. |
| CropRegistry.SaveLoadRoundTrip | src/phases/v1/main.py:17-34 | Loading a saved registry into empty lists reproduces it, provided every input is known and the number format round-trips. |
| CropRegistry.UnknownInputBreaksLoad | src/phases/v1/main.py:24-25 | A registry holding a `None` input (from an unknown crop) is saved with an empty cell. Loading it back fails at exactly that row. |
| CropRegistry.LoadPrefixThenFail | src/phases/v1/main.py:22-25 | Loading appends the well-formed rows before a bad one and then stops with an error. Python's `ValueError` or `IndexError` carries no line number; the line in the model's error is its own bookkeeping, used to state which row failed. |
| CropTable.CalculateInputs | src/phases/v1/main_streamlit.py:41-46 | The web rate: area × 200 for Corn, area × 0.5 for Coffee, 0 for any crop not in the list. |
| CropTable.FrontEndsAgree | src/phases/v1/main_streamlit.py:41-46 | On the valid crops the web form computes the same input as the desktop form. |
| CropTable.MakeRow | src/phases/v1/main_streamlit.py:126-137 | A row built from a crop and its dimensions has area length × width for Corn and π·length² for any other crop, stores the input its crop and area call for, and has a positive area when the dimensions are positive. |
| CropTable.SaveTable | src/phases/v1/main_streamlit.py:26-28 | The saved file is the column header followed by one line per row, in order, each holding the crop and its formatted area and input. |
| CropTable.ReadRows | src/phases/v1/main_streamlit.py:17-23 | The data lines read exactly when every line has three cells whose area and input parse. Then each row holds its line's crop and parsed numbers. Otherwise the error names the first bad line, and every line before it was well formed. |
| CropTable.LoadTable | src/phases/v1/main_streamlit.py:17-23 | An absent data file yields the empty table. An existing empty file fails (`EmptyDataError`), as does a file whose header is not the table's columns. Otherwise the load succeeds exactly when every data line is well formed, and row i is data line i parsed. |
| CropTable.TableRoundTrip | src/phases/v1/main_streamlit.py:17-28 | Loading a saved table gives back the same table, provided the number format round-trips. |
| CropTable.AddRow | src/phases/v1/main_streamlit.py:124-141 | Submitting the add form appends exactly one consistent row at the end, whose area is the shape's area for the entered length and width, and leaves every existing row unchanged. |
| CropTable.DeleteRows | src/phases/v1/main_streamlit.py:177-181 | Deletion fails exactly when some selected number is not a row. Otherwise the rows at the selected numbers minus one are removed, whatever the selection order. The rest keep their order, and the table shrinks by the number of distinct rows selected. |
| CropTable.FirstUnknownLabelFound | src/phases/v1/main_streamlit.py:179-180 | The failing label is found exactly when some selected row number is out of range. |
| CropTable.DeleteMatchesDesktop | src/phases/v1/main_streamlit.py:177-181 | Deleting a selection on the web table removes the same rows as the desktop form's reverse popping of the same positions. |
| CropTable.UpdateRow | src/phases/v1/main_streamlit.py:200-201 | An index that is no longer a row fails. Otherwise only that row changes. It becomes a consistent row for the submitted crop, with the area of the submitted length and width. |
| CropTable.EditsKeepRowsConsistent | src/phases/v1/main_streamlit.py:132-138 | If every row stores the input its crop and area call for, that stays true after an add or an update. |
| CropTable.Prefill | src/phases/v1/main_streamlit.py:206-251 | A stored crop outside the list fails the selectbox lookup. A negative area fails, because `math.sqrt` raises. A prefilled dimension below `min_value` 0.1 fails, because the number input raises. For Corn the prefill succeeds exactly when sqrt(area) ≥ 0.1, for Coffee exactly when sqrt(area/π) ≥ 0.1. Coffee's width is 1.0. |
| CropTable.PrefillSucceeds | src/phases/v1/main_streamlit.py:215-243 | The edit form opens exactly for a Corn row with area ≥ 0.01 or a Coffee row with area ≥ π·0.01. |
| CropTable.PrefillInvertsArea | src/phases/v1/main_streamlit.py:215-243 | The prefilled dimensions give back the stored area: sqrt(area)² for Corn and π·sqrt(area/π)² for Coffee. |
| CropTable.PrefillRoundTrip | src/phases/v1/main_streamlit.py:256-268 | Submitting the edit form with the prefilled values unchanged leaves a consistent table exactly as it was. |
| Calendar.MonthKeyIdentifiesMonth | src/phases/v4/app/utils/database.py:55 | Two readings share a month bucket exactly when they share year and month. |
| Calendar.DayKeyIdentifiesDate | src/phases/v4/app/tabs/sensor_data.py:239-242 | Two readings share a day bucket exactly when they share the calendar date. |
| Calendar.InstantIsChronological | src/phases/v4/app/utils/database.py:48 | Ordering by the instant is chronological order of the timestamps, and equal instants mean equal timestamps. |
| Calendar.BucketsFollowTime | src/phases/v4/app/utils/database.py:54-55 | A later reading never falls in an earlier month or on an earlier day. |
| SensorStore.Start | src/phases/v4/app/utils/database.py:5-8 | A process starts with the flag unset, in a consistent state. |
| SensorStore.Initialize | src/phases/v4/app/utils/database.py:11-20 | A populated file is left alone. A missing or empty file gets the schema, and so an empty table. This fails, changing nothing, when the schema script is absent. |
| SensorStore.InitializeIdempotent | src/phases/v4/app/utils/database.py:11-20 | Initialising a second time changes nothing. |
| SensorStore.Open | src/phases/v4/app/utils/database.py:29 | Connecting creates a missing file, empty, and leaves everything else unchanged. |
| SensorStore.Connect | src/phases/v4/app/utils/database.py:23-29 | Connecting fails exactly when the flag is unset, the file is missing or empty, and the schema script is absent; the flag then stays unset. On success the flag is set. Once set, connecting only opens the file. |
| SensorStore.FlagIsOneWay | src/phases/v4/app/utils/database.py:24-27 | Once a connection succeeded, every later connection succeeds, whether or not the schema script still exists, and changes nothing. |
| SensorStore.NextId | src/phases/v4/app/utils/database.py:35-41 | The key given to a new row is larger than every key in use. |
| SensorStore.Save | src/phases/v4/app/utils/database.py:32-43 | A save succeeds exactly when the connection succeeds and the reading table exists. It fails with the missing-schema error exactly when the connection fails, and with the missing-table error exactly when the table is absent. A successful save appends exactly one row, holding the six values in insert order, a fresh key and the current time. Earlier rows are unchanged. A failed save stores nothing. |
| SensorStore.SaveKeepsOrder | src/phases/v4/app/utils/database.py:32-43 | Saving keeps keys strictly increasing and timestamps non-decreasing along the table. |
| SensorStore.SortDescending | src/phases/v4/app/utils/database.py:48 | The fetched rows are a permutation of the table, ordered by timestamp descending. |
| SensorStore.WithMonth | src/phases/v4/app/utils/database.py:54-55 | Each fetched row carries the month bucket of its own timestamp. |
| SensorStore.Fetch | src/phases/v3/app/database.py:46-58 | A fetch succeeds exactly when the connection succeeds and the reading table exists, and fails with the matching error otherwise. It returns every row of the table, newest first, each with its month. It exports exactly those rows before the month is added and leaves the table unchanged. |
| SensorStore.FetchEmptyStore | src/phases/v4/app/utils/database.py:46-58 | An empty table fetches as no rows, without an error. |
| SensorStore.FetchFreshDatabase | src/phases/v4/app/utils/database.py:23-58 | On a fresh database with the schema script present, the first fetch initialises the store and returns no rows. |
| SensorStore.SaveThenFetch | src/phases/v3/app/database.py:32-58 | After a save, a fetch returns the earlier rows plus exactly the saved one. |
| Subscriber.Lookup | src/phases/v4/app/utils/mqtt.py:37-43 | A key is found exactly when the object has a member with that name; the value found belongs to such a member. |
| Subscriber.FirstMissing | src/phases/v4/app/utils/mqtt.py:38-43 | No key is reported missing exactly when every required key is present. |
| Subscriber.FirstMissingIsFirst | src/phases/v4/app/utils/mqtt.py:38-51 | The reported key is absent from the payload, and every required key before it is present. |
| Subscriber.ToValue | src/phases/v4/app/utils/mqtt.py:45-47 | A JSON number is stored as that number and a boolean as 0 or 1. Arrays and objects cannot be bound. |
| Subscriber.ReadFields | src/phases/v4/app/utils/mqtt.py:38-47 | When every required key is present, the six values can be passed to the store exactly when each of them can be bound. |
| Subscriber.OnMessage | src/phases/v4/app/utils/mqtt.py:35-53 | Handling never raises and never breaks the store's invariant. A payload that is not valid UTF-8 JSON, or is not an object, is caught. A missing key is reported, naming the first absent key, and nothing is stored. A complete payload is passed to the store's save: the store becomes the save's result, and the outcome is stored exactly when the save succeeds. Only a stored outcome adds a row. |
| Subscriber.CompletePayloadStored | src/phases/v4/app/utils/mqtt.py:35-47 | A payload object with all six keys, each bindable, sent to a usable store, is stored: exactly one row is appended, holding the six bound values and the current time. |
| Subscriber.StoredAppendsOneRow | src/phases/v4/app/utils/mqtt.py:38-47 | A stored message adds exactly one row. The row carries the six payload values in the order humidity, temperature, pH, P, K, status, and the store's own time. |
| Subscriber.ExtraKeysIgnored | src/phases/v4/app/utils/mqtt.py:38-47 | Two payloads that agree on the six required keys are handled identically, whatever other keys (such as `ltr_DATA`) they carry. |
| Subscriber.FirstMissingDependsOnLookups | src/phases/v4/app/utils/mqtt.py:38-43 | Which key is reported missing depends only on the lookups of the required keys. |
| Subscriber.Uniform | src/phases/v4/app/utils/mqtt.py:16-18 | `random.uniform(a, b)` lies in [a, b]. |
| Subscriber.Round2Between | src/phases/v4/app/utils/mqtt.py:16-18 | Rounding to two places keeps a value inside bounds that are themselves multiples of 0.01. |
| Subscriber.GenerateFakeData | src/phases/v4/app/utils/mqtt.py:14-23 | The generated object has the six required keys in order, each with a number, followed by the timestamp. |
| Subscriber.GeneratedWithinBounds | src/phases/v4/app/utils/mqtt.py:16-21 | Humidity lies in [28.9, 55.2], temperature in [7, 38.3] and pH in [6.3, 7.3]. P, K and the irrigation status are each 0 or 1. |
| Subscriber.GeneratedPayloadIsStored | src/phases/v4/app/utils/mqtt.py:14-47 | Every generated payload is stored by the subscriber, with the generated numbers, whenever the store is usable. |
| Subscriber.LookupLastOf | src/phases/v4/app/utils/mqtt.py:37-38 | The last write of a key is the value looked up; earlier members with the same key are overridden. |
| Grouping.InsertKey | src/phases/v4/app/tabs/sensor_data.py:180 | Adding a key to an ascending key list keeps it ascending and adds exactly that key. |
| Grouping.DistinctKeys | src/phases/v4/app/tabs/sensor_data.py:23 | The group index is strictly ascending and holds exactly the keys that occur. |
| Grouping.OccurrencesPositive | src/phases/v4/app/tabs/sensor_data.py:180 | A key is counted at least once exactly when it occurs. |
| Grouping.CountByKey | src/phases/v4/app/tabs/sensor_data.py:180 | `groupby(key).size()`: every bucket's count is the number of rows with its key, so it is positive; every key that occurs has a bucket, and buckets are in strictly ascending key order. |
| Grouping.CountByKeyTotal | src/phases/v4/app/tabs/sensor_data.py:179-181 | The group sizes add up to the number of rows grouped. |
| SensorReport.KeyOfSelection | src/phases/v4/app/tabs/sensor_data.py:180 | A bucket appears among the selected rows' keys exactly when a selected row falls in it. |
| SensorReport.OccurrencesOfSelection | src/phases/v4/app/tabs/sensor_data.py:180 | Counting a bucket among the selected rows is selecting the rows that satisfy the mask and fall in the bucket. |
| SensorReport.GroupOfPresentMonth | src/phases/v4/app/tabs/sensor_data.py:23 | A month that occurs has a non-empty group, made only of readings of that month. |
| SensorReport.MonthlyMeans | src/phases/v4/app/tabs/sensor_data.py:23 | One row per distinct month, in ascending order; every row's month has readings. |
| SensorReport.MonthlyMeanRow | src/phases/v4/app/tabs/sensor_data.py:23 | Each monthly row holds, column by column, the mean over that month's readings. |
| SensorReport.OneRowPerMonth | src/phases/v3/app/dashboard.py:43 | A month has a row exactly when some reading falls in it. |
| SensorReport.MonthlyMeanWithinMonth | src/phases/v4/app/tabs/sensor_data.py:23 | Every monthly mean of the six columns (humidity, temperature, pH, P, K, irrigation) lies between that month's smallest and largest value of the column. |
| SensorReport.MonthlyIrrigationRate | src/phases/v4/app/tabs/sensor_data.py:67-81 | When statuses are 0 or 1, the monthly mean irrigation status is a rate in [0, 1]. |
| SensorReport.SingleMonth | src/phases/v3/app/dashboard.py:43 | With readings of a single month there is exactly one row, holding that month's means. |
| SensorReport.MonthlyMeanExample | src/phases/v3/app/dashboard.py:43 | Two January 2024 readings with humidity 40 and 60 give one row, month 2024-01, humidity 50. |
| SensorReport.MonthlyActivations | src/phases/v4/app/tabs/sensor_data.py:179-181 | Months come in ascending order, and each count is the number of that month's readings with status exactly 1. Every count is positive. |
| SensorReport.ActivationMonths | src/phases/v3/app/dashboard.py:126 | A month is listed exactly when one of its readings has status 1, so months without activation are absent. |
| SensorReport.ActivationsTotal | src/phases/v3/app/dashboard.py:126 | The activation counts add up to the number of readings with status 1. |
| SensorReport.WaterUse | src/phases/v4/app/tabs/sensor_data.py:238-249 | Days ascend. On each listed day the two columns count that day's readings with status 1 and with status 0. |
| SensorReport.WaterUseDays | src/phases/v3/app/dashboard.py:155-166 | The table's days are the union of the two series: a day is listed exactly when one of its readings has status 0 or 1. |
| SensorReport.SplitByStatus | src/phases/v4/app/tabs/sensor_data.py:238-243 | A day's status-1 readings plus its status-0 readings are its readings with status 0 or 1. |
| SensorReport.WaterUseCounts | src/phases/v4/app/tabs/sensor_data.py:238-249 | On every listed day, the two counts add up to that day's readings with status 0 or 1. |
| SensorReport.WaterUseZeroFill | src/phases/v4/app/tabs/sensor_data.py:249 | A side with no reading on a listed day shows 0 there. |
| SensorReport.WaterUseExample | src/phases/v3/app/dashboard.py:155-166 | Three irrigated readings on one day and one non-irrigated reading on the next give the rows (day 1: 3, 0) and (day 2: 0, 1). |
| SensorReport.IdealCounts | src/phases/v4/app/tabs/sensor_data.py:284-296 | The humidity count is the number of readings with 40 ≤ humidity ≤ 60, and the pH count the number with 6.0 ≤ pH ≤ 7.5, bounds included. Each count is at most the number of readings. |
| SensorReport.IdealCountsIndependent | src/phases/v3/app/dashboard.py:177-178 | The two filters are independent: their counts add up to the readings ideal in both plus those ideal in either. |
| SensorReport.IdealHumidityExample | src/phases/v3/app/dashboard.py:177-186 | Humidities 35, 45, 55 and 65 give two ideal readings. |
| MetricsTable.Strip | src/phases/v6/scripts/results_analysis.py:73 | The stripped name is a slice of the original with only whitespace cut before and after it. It neither starts nor ends with whitespace. Whitespace is the ASCII set `str.isspace` accepts, including the separators \x1c to \x1f. |
| MetricsTable.StripSeparatorExample | src/phases/v6/scripts/results_analysis.py:73 | The header "\x1cepoch " strips to "epoch". |
| MetricsTable.StripIdempotent | src/phases/v6/scripts/results_analysis.py:73 | Stripping a stripped name changes nothing. |
| MetricsTable.LoadResults | src/phases/v6/scripts/results_analysis.py:68-77 | A file that fails to parse loads as nothing. Otherwise every column keeps its values, and its name is the stripped original name, which strips to itself. |
| MetricsTable.ColumnValues | src/phases/v6/scripts/results_analysis.py:191-192 | The values read for a metric are those of a column of that name. |
| MetricsTable.Search | src/phases/v6/scripts/results_analysis.py:195 | The decidable search holds exactly when the text occurs as a substring (Python `in`). |
| MetricsTable.LossMetrics | src/phases/v6/scripts/results_analysis.py:177-195 | Of the seven compared metrics, exactly the three training losses count as loss metrics. |
| MetricsTable.Decimals | src/phases/v6/scripts/results_analysis.py:207-212 | Values are printed with three or four decimals: three exactly when the metric's name contains "mAP", "precision" or "recall". |
| MetricsTable.ChangeRules | src/phases/v6/scripts/results_analysis.py:194-204 | A loss is reported as reduced exactly when (m1 − m2)/m1 is positive; any other metric as increased exactly when (m2 − m1)/m1 is. The percentage is never negative, NaN exactly when both finals are 0, and never −∞. |
| MetricsTable.EqualFinals | src/phases/v6/scripts/results_analysis.py:197-204 | Equal nonzero finals give a 0% change, labelled "aumento" (increase) for losses and "redução" (reduction) for the rest. |
| MetricsTable.Shared | src/phases/v6/scripts/results_analysis.py:189-190 | The selected metrics are exactly the listed ones present in both frames, kept in list order: the list filtered by presence in both. |
| MetricsTable.RowOf | src/phases/v6/scripts/results_analysis.py:190-221 | A row fails exactly when one of the two columns is empty (`iloc[-1]` raises). Otherwise it holds the title, the two last values and the change between them. |
| MetricsTable.RowsOf | src/phases/v6/scripts/results_analysis.py:189-221 | The rows fail exactly when one metric's row fails; otherwise there is one row per metric, in order. |
| MetricsTable.MetricsComparison | src/phases/v6/scripts/results_analysis.py:175-223 | One row per metric present in both runs, in the fixed dictionary order (row i is titled after the i-th such metric), so at most seven rows. The table fails exactly when one of those metrics has an empty column. |
| MetricsTable.ReplaceChar | src/phases/v6/scripts/results_analysis.py:164 | Every occurrence of one character is replaced and every other character is kept. |
| MetricsTable.PlotFileName | src/phases/v6/scripts/results_analysis.py:163-165 | The plot file name is the metric with every "/" turned into "_" and every other character kept, followed by "_comparison.png". It contains no "/". |
| MetricsTable.ConfusionFileName | src/phases/v6/scripts/results_analysis.py:236-238 | The confusion-matrix file name is the fixed prefix, then the model name with every space turned into "_" and every other character kept, then ".png". It contains no space. |
| Basics.QuotientPositive | src/phases/v6/scripts/results_analysis.py:197-203 | A float64 quotient is positive exactly when the numerator is positive and the divisor is non-negative (a +0.0 divisor gives +∞), or both are negative. |
| Basics.AbsScaleNonNegative | src/phases/v6/scripts/results_analysis.py:197-204 | Scaling a quotient by 100 and taking its absolute value gives no negative number and no −∞. NaN stays NaN, and scaling keeps the sign test. |
| Basics.MeanBetweenMinAndMax | src/phases/v4/app/tabs/sensor_data.py:23 | Every mean lies between the smallest and largest value it averages. |
| Basics.FirstArgMax | src/phases/v5/notebooks/GabrielRibeiro_rm560173_pbl_fase5.py:363 | The position returned holds the maximum, and no earlier position holds it. |
| Basics.FirstArgMin | src/phases/v5/notebooks/GabrielRibeiro_rm560173_pbl_fase5.py:1154 | The position returned holds the minimum, and no earlier position holds it. |
| CropYield.OptimalK | src/phases/v5/notebooks/GabrielRibeiro_rm560173_pbl_fase5.py:325-363 | The chosen k lies in [2, 10] and has the highest silhouette score; ties go to the smallest k. |
| CropYield.Fences | src/phases/v5/notebooks/GabrielRibeiro_rm560173_pbl_fase5.py:577-581 | The fences enclose the quartiles and lie four interquartile ranges apart. |
| CropYield.MarkOutliers | src/phases/v5/notebooks/GabrielRibeiro_rm560173_pbl_fase5.py:584-586 | One marking step never clears a flag. It raises a flag only for a row of that cluster outside that feature's fences, and raises it for every such row. |
| CropYield.FlaggedUpToNext | src/phases/v5/notebooks/GabrielRibeiro_rm560173_pbl_fase5.py:574-586 | Looking at one more feature adds exactly that feature's fence test. |
| CropYield.FlagOutliers | src/phases/v5/notebooks/GabrielRibeiro_rm560173_pbl_fase5.py:566-586 | A row ends up flagged exactly when some feature of it lies strictly outside its own cluster's fences. |
| CropYield.DropColumns | src/phases/v5/notebooks/GabrielRibeiro_rm560173_pbl_fase5.py:791-793 | Only the named columns that are present are removed; every other column stays, once each and in its order (the columns filtered by "not named"). With none present, nothing changes. |
| CropYield.DropColumnsIdempotent | src/phases/v5/notebooks/GabrielRibeiro_rm560173_pbl_fase5.py:791-793 | Dropping a second time removes nothing more. |
| CropYield.FeatureColumns | src/phases/v5/notebooks/GabrielRibeiro_rm560173_pbl_fase5.py:791-801 | Preparation fails exactly when the target is absent or is a clustering column. Otherwise the features are the columns other than the target and the clustering columns, in their original order: the columns filtered first by the clustering columns and then by the target. |
| CropYield.EncodedColumn | src/phases/v5/notebooks/GabrielRibeiro_rm560173_pbl_fase5.py:827-829 | One column yields one name per category except the first, "{column}_{value}" in category order. |
| CropYield.EncodedNames | src/phases/v5/notebooks/GabrielRibeiro_rm560173_pbl_fase5.py:826-829 | The number of encoded names is the sum over columns of their category count minus one. |
| CropYield.EncodedNameAt | src/phases/v5/notebooks/GabrielRibeiro_rm560173_pbl_fase5.py:826-829 | Category j (j ≥ 1) of column i is named "{column}_{value}", placed after all names of the earlier columns. |
| CropYield.FeatureNames | src/phases/v5/notebooks/GabrielRibeiro_rm560173_pbl_fase5.py:813-851 | With categorical columns, the features are the numeric names followed by the encoded names (just the encoded names when there are no numeric columns). Without categorical columns they are the columns as given. |
| CropYield.EncodedFeatureAt | src/phases/v5/notebooks/GabrielRibeiro_rm560173_pbl_fase5.py:826-842 | In the final list, category j of categorical column i sits after the numeric names and the earlier columns' names. |
| CropYield.ReportRule | src/phases/v5/notebooks/GabrielRibeiro_rm560173_pbl_fase5.py:674-679 | A feature is reported exactly when its cluster mean differs from a nonzero overall mean by more than 10% of that mean's magnitude, or the overall mean is 0 and the cluster mean is not. "Higher" is worked out sign by sign, including a negative overall mean. |
| CropYield.YieldDirection | src/phases/v5/notebooks/GabrielRibeiro_rm560173_pbl_fase5.py:689-692 | Without a threshold, yield is "higher" exactly when the cluster mean exceeds a non-negative overall mean, or falls below a negative one. |
| CropYield.CompareModels | src/phases/v5/notebooks/GabrielRibeiro_rm560173_pbl_fase5.py:1150-1155 | No models fail. Otherwise the R² winner is the first model with the highest R², and the RMSE winner the first with the lowest RMSE, each with its score. |

## Left out

- Screens and charts. The Tkinter and Streamlit widgets, message boxes, session state, reruns and every plotly or matplotlib chart are left out: they are presentation. Only the data each screen computes is modelled.
- Network and cloud calls. The weather lookups, the alert HTTP and SNS calls, and the MQTT connect, subscribe and publish loop talk to external services. Nothing of their logic is modelled.
- Concurrency between the subscriber thread and the dashboard reads. The store is modelled as a sequence of single steps.
- The schema script `init.sql` is not part of this model. Running it is assumed to create the reading table, empty. The insert names no timestamp column, so the script is also assumed to give the timestamp a default of the current time: SensorStore.Save stores `now` there.
- sqlite internals. A new row's key is one more than the largest key in use, the rule sqlite applies to an integer primary key; the exact key declaration lives in the schema script. Rows with equal timestamps come out in an unspecified order, so the fetch contract fixes the permutation and the descending order, not a tie order.
- Float64 arithmetic. Values are exact reals. Division by zero is modelled, because the comparison table and the cluster summary can divide by a zero mean. Rounding error, overflow and NaN inputs are not modelled.
- Python `str.isdigit` and `str.strip` beyond ASCII. Non-ASCII digits and non-ASCII Unicode whitespace are outside the model; every ASCII character `str.isspace` accepts is modelled.
- Number formatting and parsing. `str(float)`, `float(str)` and `f"{x:.2f}"`-style formatting are parameters or left out. The CSV round trip assumes the formatter and parser invert each other.
- Subscriber.Round2: models `round(x, 2)` as round-half-up to a multiple of 0.01, while Python rounds the binary float half-to-even. Only the bounds lemma relies on it, and it holds for either rule.
- Randomness and the clock. `random.uniform`, `random.choice` and `datetime.utcnow` are draws passed in as parameters, restricted to the ranges the source uses.
- `math.sqrt` and `math.pi`: sqrt is a parameter required to be a square root on non-negative arguments. π is 3.141592653589793, the shortest decimal that rounds to the float64 `math.pi`, not that float64 itself; the model computes with this decimal exactly.
- Saving after each edit. The desktop form rewrites the data file after every add, delete and edit (src/phases/v1/main.py:79, 110 and 185), and so does the web form (src/phases/v1/main_streamlit.py:141, 181 and 271). The edit operations return the lists or the table only. The file written is `SaveToCsv` or `SaveTable` of that result, and the round-trip lemmas state that it loads back as the same data. The composed edit-then-save step is not a member of its own.
- CropTable.LoadTable: pandas reads a header other than the table's columns and fails only later, when a missing column is used; the model rejects such a file at load. A short line or an unparsable number gives NaN or a text column in pandas; the model reports that line as bad.
- MetricsTable.RowOf: the source builds each row as a dict keyed by the two model names (src/phases/v6/scripts/results_analysis.py:214-219). Equal model names, or a model named "Métrica" or "Mudança", make two cells share one key and collapse into one. The model's `Row` record keeps every value in its own field, so it does not show that collapse.
- Text readings. Subscriber.ToValue binds a JSON string as text, and sqlite keeps it as text. `SensorReport.Reading` holds reals only, so such a row is outside the dashboard model. In the source the monthly mean (src/phases/v4/app/tabs/sensor_data.py:23) and the ideal-range comparisons (src/phases/v4/app/tabs/sensor_data.py:284-285) would fail or drop that column.
- CropRegistry.SaveUpdates: the dialog keeps the position it was opened on. After a deletion in the main window that position may still be in range and then names a different row, which the save rewrites; the model takes the position as given and cannot say which row the user meant.
- CropTable.UpdateRow: `df.at` with a missing label would enlarge the frame. The edit form reads `df.iloc[row_idx]` first, which raises, so the model reports the error and ignores enlargement.
- Phase-5 library calls: KMeans, silhouette scores, quantiles, StandardScaler, OneHotEncoder, train/test split and the regressors. Their results (scores, quartiles, categories, metrics) are inputs. The dtype split into numeric and categorical columns is taken as given lists.
- SensorReport.MonthlyMeans: `groupby("month").mean()` also averages the id and timestamp columns. No chart reads those means, so a monthly row holds only the six reading columns.
- Duplicate names. pandas frames with repeated column names, and model tables with repeated index labels, are outside the model. `ColumnValues` takes the first column of a name.
- NaN inside pandas reductions. `idxmax`, `idxmin`, `max` and `quantile` skip NaN. The model's inputs are finite reals.
- The phase-6 training notebook, the dashboard launcher and the machine-learning tab are shell, import and library orchestration, and are left out.

=== FILE: basics.dfy ===
/** Shared vocabulary: optional and failing results, the float64 quotient that
    pandas and numpy compute (division by zero gives an infinity or NaN instead
    of raising), order-preserving filtering and counting, and first-argmax. */
module Basics {

  datatype Option<+T> = None | Some(value: T) {
    function GetOr(default: T): T {
      match this
      case Some(v) => v
      case None => default
    }
  }

  datatype Result<+T, +E> = Ok(value: T) | Err(error: E)

  /** A float64 value as far as this model needs it: a finite real, one of
      the two infinities, or NaN. */
  datatype Ext = Fin(value: real) | PosInf | NegInf | NaN

  /** `n / d` on float64 operands when the divisor is +0.0 or nonzero. */
  function Quotient(n: real, d: real): Ext
  {
    if d != 0.0 then Fin(n / d)
    else if n > 0.0 then PosInf
    else if n < 0.0 then NegInf
    else NaN
  }

  /** Multiplication by a positive constant, as `* 100` in a percentage. */
  function ScaleBy(q: Ext, k: real): (r: Ext)
    requires k > 0.0
  {
    match q
    case Fin(x) => Fin(x * k)
    case _ => q
  }

  /** Python's `abs` on a float64. */
  function AbsExt(q: Ext): Ext
  {
    match q
    case Fin(x) => Fin(if x < 0.0 then -x else x)
    case NegInf => PosInf
    case _ => q
  }

  /** The comparison `q > c` for a finite constant `c`; every comparison with NaN is false. */
  predicate Exceeds(q: Ext, c: real)
  {
    match q
    case Fin(x) => x > c
    case PosInf => true
    case _ => false
  }

  /** The sign of a float64 quotient: it is positive exactly when numerator
      and divisor agree in sign (a zero divisor counting as +0.0). */
  lemma QuotientPositive(n: real, d: real)
    ensures Exceeds(Quotient(n, d), 0.0) <==> (d >= 0.0 && n > 0.0) || (d < 0.0 && n < 0.0)
  {
    if d > 0.0 {
      assert n / d * d == n;
      if n > 0.0 { assert n / d > 0.0; }
      else { assert n / d <= 0.0; }
    } else if d < 0.0 {
      assert n / d * d == n;
      if n < 0.0 { assert n / d > 0.0; }
      else { assert n / d <= 0.0; }
    }
  }

  /** Scaling by a positive constant and taking the absolute value never yields
      a negative finite number, and it keeps NaN and the infinities apart. */
  lemma AbsScaleNonNegative(q: Ext, k: real)
    requires k > 0.0
    ensures AbsExt(ScaleBy(q, k)).Fin? ==> AbsExt(ScaleBy(q, k)).value >= 0.0
    ensures AbsExt(ScaleBy(q, k)).NaN? <==> q.NaN?
    ensures AbsExt(ScaleBy(q, k)) == PosInf <==> q.PosInf? || q.NegInf?
    ensures Exceeds(ScaleBy(q, k), 0.0) <==> Exceeds(q, 0.0)
  {
    if q.Fin? {
      if q.value > 0.0 { assert q.value * k > 0.0; }
      else { assert q.value * k <= 0.0; }
    }
  }

  /** The elements of `xs` that satisfy `p`, in their original order (a
      pandas boolean-mask selection). */
  function Filter<T>(xs: seq<T>, p: T -> bool): (r: seq<T>)
    ensures |r| <= |xs|
  {
    if |xs| == 0 then []
    else
      var init := Filter(xs[..|xs| - 1], p);
      var last := xs[|xs| - 1];
      assert xs == xs[..|xs| - 1] + [last];
      if p(last) then init + [last] else init
  }

  /** A filtered sequence holds exactly the elements that satisfy the mask. */
  lemma {:induction false} FilterMembers<T>(xs: seq<T>, p: T -> bool)
    ensures forall x :: x in Filter(xs, p) <==> x in xs && p(x)
  {
    if |xs| > 0 {
      FilterMembers(xs[..|xs| - 1], p);
      assert xs == xs[..|xs| - 1] + [xs[|xs| - 1]];
    }
  }

  /** The positions of `xs` whose element satisfies `p`. */
  ghost function Positions<T>(xs: seq<T>, p: T -> bool): set<int>
  {
    set i | 0 <= i < |xs| && p(xs[i])
  }

  /** Filtering keeps exactly one element per satisfying position. */
  lemma {:induction false} FilterCountsPositions<T>(xs: seq<T>, p: T -> bool)
    ensures |Filter(xs, p)| == |Positions(xs, p)|
  {
    if |xs| > 0 {
      var n := |xs| - 1;
      var init := xs[..n];
      FilterCountsPositions(init, p);
      var all := Positions(xs, p);
      assert Positions(init, p) == all - {n} by {
        assert forall i :: 0 <= i < n ==> init[i] == xs[i];
      }
      assert p(xs[n]) <==> n in all;
    }
  }

  /** Filtering one more element appends it exactly when it is selected. */
  lemma FilterSnoc<T>(xs: seq<T>, x: T, p: T -> bool)
    ensures Filter(xs + [x], p) == Filter(xs, p) + (if p(x) then [x] else [])
  {
    assert (xs + [x])[..|xs|] == xs;
  }

  /** Filtering distributes over concatenation. */
  lemma {:induction false} FilterAppend<T>(xs: seq<T>, ys: seq<T>, p: T -> bool)
    ensures Filter(xs + ys, p) == Filter(xs, p) + Filter(ys, p)
    decreases |ys|
  {
    if |ys| > 0 {
      var n := |ys| - 1;
      assert (xs + ys)[..|xs + ys| - 1] == xs + ys[..n];
      FilterAppend(xs, ys[..n], p);
    } else {
      assert xs + ys == xs;
    }
  }

  function Sum(xs: seq<real>): real
  {
    if |xs| == 0 then 0.0 else Sum(xs[..|xs| - 1]) + xs[|xs| - 1]
  }

  /** The arithmetic mean (pandas `mean`) of a non-empty column. */
  function Mean(xs: seq<real>): real
    requires |xs| > 0
  {
    Sum(xs) / (|xs| as real)
  }

  /** A sum of values that all lie in [lo, hi] lies in [n*lo, n*hi]. */
  lemma {:induction false} SumBounds(xs: seq<real>, lo: real, hi: real)
    requires forall i :: 0 <= i < |xs| ==> lo <= xs[i] <= hi
    ensures (|xs| as real) * lo <= Sum(xs) <= (|xs| as real) * hi
  {
    if |xs| > 0 {
      SumBounds(xs[..|xs| - 1], lo, hi);
    }
  }

  /** A mean lies within every pair of bounds that hold of all its values. */
  lemma MeanBounds(xs: seq<real>, lo: real, hi: real)
    requires |xs| > 0
    requires forall i :: 0 <= i < |xs| ==> lo <= xs[i] <= hi
    ensures lo <= Mean(xs) <= hi
  {
    SumBounds(xs, lo, hi);
    var n := |xs| as real;
    var m := Mean(xs);
    assert m * n == Sum(xs);
    assert (m - lo) * n >= 0.0;
    assert (hi - m) * n >= 0.0;
  }

  function MinOf(xs: seq<real>): (m: real)
    requires |xs| > 0
    ensures forall i :: 0 <= i < |xs| ==> m <= xs[i]
    ensures exists i :: 0 <= i < |xs| && xs[i] == m
  {
    if |xs| == 1 then xs[0]
    else
      var rest := MinOf(xs[1..]);
      assert forall i :: 1 <= i < |xs| ==> xs[i] == xs[1..][i - 1];
      if xs[0] <= rest then xs[0] else rest
  }

  function MaxOf(xs: seq<real>): (m: real)
    requires |xs| > 0
    ensures forall i :: 0 <= i < |xs| ==> xs[i] <= m
    ensures exists i :: 0 <= i < |xs| && xs[i] == m
  {
    if |xs| == 1 then xs[0]
    else
      var rest := MaxOf(xs[1..]);
      assert forall i :: 1 <= i < |xs| ==> xs[i] == xs[1..][i - 1];
      if xs[0] >= rest then xs[0] else rest
  }

  /** Every mean lies between the smallest and the largest value it averages. */
  lemma MeanBetweenMinAndMax(xs: seq<real>)
    requires |xs| > 0
    ensures MinOf(xs) <= Mean(xs) <= MaxOf(xs)
  {
    MeanBounds(xs, MinOf(xs), MaxOf(xs));
  }

  /** Python's `xs.index(max(xs))` and pandas `idxmax`: the first position
      holding the largest value. */
  method FirstArgMax(xs: seq<real>) returns (i: nat)
    requires |xs| > 0
    ensures i < |xs|
    ensures forall j :: 0 <= j < |xs| ==> xs[j] <= xs[i]
    ensures forall j :: 0 <= j < i ==> xs[j] < xs[i]
  {
    i := 0;
    var k := 1;
    while k < |xs|
      invariant 1 <= k <= |xs|
      invariant i < k
      invariant forall j :: 0 <= j < k ==> xs[j] <= xs[i]
      invariant forall j :: 0 <= j < i ==> xs[j] < xs[i]
    {
      if xs[k] > xs[i] {
        i := k;
      }
      k := k + 1;
    }
  }

  /** pandas `idxmin`: the first position holding the smallest value. */
  method FirstArgMin(xs: seq<real>) returns (i: nat)
    requires |xs| > 0
    ensures i < |xs|
    ensures forall j :: 0 <= j < |xs| ==> xs[i] <= xs[j]
    ensures forall j :: 0 <= j < i ==> xs[i] < xs[j]
  {
    i := 0;
    var k := 1;
    while k < |xs|
      invariant 1 <= k <= |xs|
      invariant i < k
      invariant forall j :: 0 <= j < k ==> xs[i] <= xs[j]
      invariant forall j :: 0 <= j < i ==> xs[i] < xs[j]
    {
      if xs[k] < xs[i] {
        i := k;
      }
      k := k + 1;
    }
  }
}

=== FILE: calendar.dfy ===
/** Timestamps of sensor readings and the buckets derived from them.  A month
    bucket is pandas' `to_period("M")`, written as the integer YYYYMM; a day
    bucket is `.dt.date`, written as YYYYMMDD.  On valid timestamps both
    encodings are injective and order-preserving. */
module Calendar {

  datatype Timestamp = Timestamp(year: int, month: int, day: int, hour: int, minute: int, second: int)

  predicate Valid(t: Timestamp)
  {
    && 1 <= t.month <= 12
    && 1 <= t.day <= 31
    && 0 <= t.hour < 24
    && 0 <= t.minute < 60
    && 0 <= t.second < 60
  }

  function MonthKey(t: Timestamp): int
  {
    t.year * 100 + t.month
  }

  function DayKey(t: Timestamp): int
  {
    MonthKey(t) * 100 + t.day
  }

  /** The position of a timestamp on the time line, as one integer. */
  function Instant(t: Timestamp): int
  {
    ((DayKey(t) * 100 + t.hour) * 100 + t.minute) * 100 + t.second
  }

  /** Chronological order on timestamps, field by field. */
  predicate Earlier(a: Timestamp, b: Timestamp)
  {
    if a.year != b.year then a.year < b.year
    else if a.month != b.month then a.month < b.month
    else if a.day != b.day then a.day < b.day
    else if a.hour != b.hour then a.hour < b.hour
    else if a.minute != b.minute then a.minute < b.minute
    else a.second < b.second
  }

  /** The month key names the calendar month and nothing else. */
  lemma MonthKeyIdentifiesMonth(a: Timestamp, b: Timestamp)
    requires Valid(a) && Valid(b)
    ensures MonthKey(a) == MonthKey(b) <==> a.year == b.year && a.month == b.month
  {
  }

  /** The day key names the calendar date and nothing else. */
  lemma DayKeyIdentifiesDate(a: Timestamp, b: Timestamp)
    requires Valid(a) && Valid(b)
    ensures DayKey(a) == DayKey(b) <==> a.year == b.year && a.month == b.month && a.day == b.day
  {
  }

  /** Comparing instants is comparing timestamps chronologically. */
  lemma InstantIsChronological(a: Timestamp, b: Timestamp)
    requires Valid(a) && Valid(b)
    ensures Instant(a) < Instant(b) <==> Earlier(a, b)
    ensures Instant(a) == Instant(b) <==> a == b
  {
  }

  /** A later reading never falls in an earlier month or on an earlier day. */
  lemma BucketsFollowTime(a: Timestamp, b: Timestamp)
    requires Valid(a) && Valid(b)
    requires Instant(a) <= Instant(b)
    ensures MonthKey(a) <= MonthKey(b)
    ensures DayKey(a) <= DayKey(b)
  {
  }
}

=== FILE: crop_registry.dfy ===
/** The desktop crop form: three parallel lists (crop names, areas, input
    quantities), the entry validation of the add button, deletion of the
    selected table rows, in-place update from the edit dialog, the digits-only
    key filter of the entry fields, and the CSV file the lists are saved to and
    loaded from. */
module CropRegistry {
  import opened Basics

  const ValidCrops: seq<string> := ["Corn", "Coffee"]

  /** `math.pi` as Python prints it: 3.141592653589793 is the shortest decimal
      that rounds to the float64 `math.pi`, not that float64 itself.  The
      model computes with this decimal exactly. */
  const Pi: real := 3.141592653589793

  function RectangleArea(length: real, width: real): real
  {
    length * width
  }

  function CircleArea(radius: real): real
  {
    Pi * radius * radius
  }

  /** Input needed per unit of area: 200 for Corn, 0.5 for Coffee, none for
      any other crop. */
  function Rate(crop: string): Option<real>
  {
    if crop == "Corn" then Some(200.0)
    else if crop == "Coffee" then Some(0.5)
    else None
  }

  /** The input quantity for a crop and an area; the desktop form returns
      nothing (Python `None`) for a crop it does not know. */
  function Inputs(crop: string, area: real): (r: Option<real>)
    ensures r.Some? <==> crop in ValidCrops
    ensures crop == "Corn" ==> r == Some(area * 200.0)
    ensures crop == "Coffee" ==> r == Some(area * 0.5)
  {
    match Rate(crop)
    case Some(k) => Some(area * k)
    case None => None
  }

  /** Corn plots are rectangles; every other crop is a circle whose radius is
      the length field. */
  function PlotArea(crop: string, length: real, width: real): real
  {
    if crop == "Corn" then RectangleArea(length, width) else CircleArea(length)
  }

  /** A plot with positive dimensions has a positive area, whatever its crop. */
  lemma PlotAreaPositive(crop: string, length: real, width: real)
    requires length > 0.0 && width > 0.0
    ensures PlotArea(crop, length, width) > 0.0
  {
    if crop == "Corn" {
      assert length * width > 0.0;
    } else {
      var a := Pi * length;
      assert a > 0.0;
      assert CircleArea(length) == a * length;
      assert a * length > 0.0;
    }
  }

  /** The three module-level lists; `inputs` may hold Python `None`. */
  datatype Registry = Registry(crops: seq<string>, areas: seq<real>, inputs: seq<Option<real>>) {
    ghost predicate Parallel()
    {
      |crops| == |areas| == |inputs|
    }

    function Size(): nat
    {
      |crops|
    }
  }

  const Empty := Registry([], [], [])

  // ---------------------------------------------------------------------------
  // Entry fields

  predicate IsDigit(c: char)
  {
    '0' <= c <= '9'
  }

  /** Python `str.isdigit` on ASCII text: non-empty and all digits. */
  predicate IsDigitString(s: string)
  {
    |s| > 0 && forall i :: 0 <= i < |s| ==> IsDigit(s[i])
  }

  /** The key filter of the length and width fields: the text a keystroke
      would produce is kept only if it is empty or all digits. */
  function ValidateNumericInput(value: string): (ok: bool)
    ensures ok <==> forall i :: 0 <= i < |value| ==> IsDigit(value[i])
  {
    IsDigitString(value) || value == ""
  }

  /** A decimal point or a minus sign anywhere makes the filter refuse the
      text, so neither fractions nor negative numbers can be typed. */
  lemma PointAndMinusRejected(value: string, i: nat)
    requires i < |value| && (value[i] == '.' || value[i] == '-')
    ensures !ValidateNumericInput(value)
  {
  }

  /** The value of a string of decimal digits. */
  function DigitsValue(s: string): (v: int)
    requires forall i :: 0 <= i < |s| ==> IsDigit(s[i])
    ensures v >= 0
  {
    if |s| == 0 then 0
    else
      var last := s[|s| - 1];
      assert IsDigit(last);
      DigitsValue(s[..|s| - 1]) * 10 + (last as int - '0' as int)
  }

  /** `float(entry.get())` for a text the key filter let through: the empty
      text raises ValueError (None here); digits give their value. */
  function ParseEntry(text: string): (r: Option<real>)
    requires ValidateNumericInput(text)
    ensures r.None? <==> text == ""
    ensures r.Some? ==> r.value >= 0.0
  {
    if text == "" then None else Some(DigitsValue(text) as real)
  }

  // ---------------------------------------------------------------------------
  // Add

  datatype EntryError = InvalidCrop | NotPositive

  datatype Entry = Entry(crop: string, area: real, input: Option<real>)

  /** The checks of the add button, in the order `enter_data` in main.py makes them:
      the crop first, then both numbers (parsed, then positive). */
  function CheckEntry(crop: string, length: Option<real>, width: Option<real>): (r: Result<Entry, EntryError>)
    ensures crop !in ValidCrops ==> r == Err(InvalidCrop)
    ensures crop in ValidCrops ==>
      (r.Err? <==> length.None? || width.None? || length.value <= 0.0 || width.value <= 0.0)
    ensures r.Ok? ==> r.value.crop == crop && r.value.area > 0.0 && r.value.input.Some?
    ensures r.Ok? ==> r.value.area == PlotArea(crop, length.value, width.value)
    ensures r.Ok? ==> r.value.input == Inputs(crop, r.value.area)
  {
    if crop !in ValidCrops then Err(InvalidCrop)
    else if length.None? || width.None? || length.value <= 0.0 || width.value <= 0.0 then Err(NotPositive)
    else
      var area := PlotArea(crop, length.value, width.value);
      PlotAreaPositive(crop, length.value, width.value);
      Ok(Entry(crop, area, Inputs(crop, area)))
  }

  /** The add button: a rejected entry leaves all three lists as they were;
      an accepted one appends one element to each. */
  function EnterData(reg: Registry, crop: string, length: Option<real>, width: Option<real>): (r: Registry)
    requires reg.Parallel()
    ensures r.Parallel()
    ensures CheckEntry(crop, length, width).Err? ==> r == reg
    ensures CheckEntry(crop, length, width).Ok? ==>
      && r.Size() == reg.Size() + 1
      && r.crops[..reg.Size()] == reg.crops
      && r.areas[..reg.Size()] == reg.areas
      && r.inputs[..reg.Size()] == reg.inputs
      && r.crops[reg.Size()] == crop
      && r.areas[reg.Size()] == PlotArea(crop, length.value, width.value)
      && r.areas[reg.Size()] > 0.0
      && r.inputs[reg.Size()] == Inputs(crop, r.areas[reg.Size()])
  {
    match CheckEntry(crop, length, width)
    case Err(_) => reg
    case Ok(e) => Registry(reg.crops + [e.crop], reg.areas + [e.area], reg.inputs + [e.input])
  }

  /** Through the key filter, the add button's positivity check can only
      reject an empty field or a field whose digits are all zero. */
  lemma FilteredEntryAccepted(crop: string, lengthText: string, widthText: string)
    requires crop in ValidCrops
    requires ValidateNumericInput(lengthText) && ValidateNumericInput(widthText)
    ensures CheckEntry(crop, ParseEntry(lengthText), ParseEntry(widthText)).Ok?
        <==> lengthText != "" && widthText != "" && DigitsValue(lengthText) > 0 && DigitsValue(widthText) > 0
  {
  }

  // ---------------------------------------------------------------------------
  // Delete

  function PopAt<T>(s: seq<T>, i: nat): seq<T>
    requires i < |s|
  {
    s[..i] + s[i + 1..]
  }

  /** `for i in reversed(positions): s.pop(i)`; None when a pop is out of
      range (IndexError). */
  function PopReversed<T>(s: seq<T>, positions: seq<nat>): Option<seq<T>>
  {
    if |positions| == 0 then Some(s)
    else
      var p := positions[|positions| - 1];
      if p < |s| then PopReversed(PopAt(s, p), positions[..|positions| - 1]) else None
  }

  /** The elements of `s` whose positions are not in `drop`, in order. */
  function Keep<T>(s: seq<T>, drop: set<int>): seq<T>
  {
    if |s| == 0 then []
    else Keep(s[..|s| - 1], drop) + (if |s| - 1 in drop then [] else [s[|s| - 1]])
  }

  /** The positions listed in a selection. */
  ghost function Members(positions: seq<nat>): set<int>
  {
    set i | i in positions
  }

  /** Row positions as the table reports a selection: distinct, ascending and
      within the table. */
  predicate AscendingPositions(positions: seq<nat>, size: nat)
  {
    && (forall i :: 0 <= i < |positions| ==> positions[i] < size)
    && (forall i, j :: 0 <= i < j < |positions| ==> positions[i] < positions[j])
  }

  lemma {:induction false} KeepAppendTail<T>(x: seq<T>, y: seq<T>, drop: set<int>)
    requires forall q :: q in drop ==> q < |x|
    ensures Keep(x + y, drop) == Keep(x, drop) + y
    decreases |y|
  {
    if |y| == 0 {
      assert x + y == x;
    } else {
      var n := |y| - 1;
      assert (x + y)[..|x + y| - 1] == x + y[..n];
      assert (x + y)[|x + y| - 1] == y[n];
      KeepAppendTail(x, y[..n], drop);
      assert y == y[..n] + [y[n]];
    }
  }

  lemma {:induction false} KeepIgnoresBeyond<T>(x: seq<T>, drop: set<int>, p: int)
    requires p >= |x|
    ensures Keep(x, drop + {p}) == Keep(x, drop)
  {
    if |x| > 0 {
      KeepIgnoresBeyond(x[..|x| - 1], drop, p);
    }
  }

  /** Popping position p, when every other dropped position lies before it,
      is keeping the rest with p added to the dropped set. */
  lemma {:induction false} PopAtIsKeep<T>(s: seq<T>, p: nat, drop: set<int>)
    requires p < |s|
    requires forall q :: q in drop ==> q < p
    ensures Keep(PopAt(s, p), drop) == Keep(s, drop + {p})
  {
    var pre := s[..p];
    var post := s[p + 1..];
    assert Keep(PopAt(s, p), drop) == Keep(pre, drop) + post by {
      KeepAppendTail(pre, post, drop);
    }
    assert Keep(s, drop + {p}) == Keep(s[..p + 1], drop + {p}) + post by {
      assert s == s[..p + 1] + post;
      KeepAppendTail(s[..p + 1], post, drop + {p});
    }
    assert Keep(s[..p + 1], drop + {p}) == Keep(pre, drop) by {
      assert s[..p + 1][..p] == pre;
      KeepIgnoresBeyond(pre, drop, p);
    }
  }

  /** Popping distinct ascending positions from the back removes exactly
      those positions and keeps the order of everything else. */
  lemma {:induction false} PopReversedIsKeep<T>(s: seq<T>, positions: seq<nat>)
    requires AscendingPositions(positions, |s|)
    ensures PopReversed(s, positions) == Some(Keep(s, Members(positions)))
  {
    if |positions| == 0 {
      KeepNothing(s);
      assert Members(positions) == {};
    } else {
      var n := |positions| - 1;
      var p := positions[n];
      var rest := positions[..n];
      assert AscendingPositions(rest, |s| - 1) by {
        assert forall i :: 0 <= i < n ==> rest[i] == positions[i] && positions[i] < p;
      }
      PopReversedIsKeep(PopAt(s, p), rest);
      var dropped := Members(rest);
      assert forall q :: q in dropped ==> q < p by {
        assert forall i :: 0 <= i < n ==> rest[i] < p;
      }
      PopAtIsKeep(s, p, dropped);
      MembersSnoc(rest, p);
      assert positions == rest + [p];
    }
  }

  lemma MembersSnoc(ps: seq<nat>, p: nat)
    ensures Members(ps + [p]) == Members(ps) + {p}
  {
    assert forall i :: i in ps + [p] <==> i in ps || i == p;
  }

  lemma {:induction false} KeepNothing<T>(s: seq<T>)
    ensures Keep(s, {}) == s
  {
    if |s| > 0 {
      KeepNothing(s[..|s| - 1]);
      assert s == s[..|s| - 1] + [s[|s| - 1]];
    }
  }

  /** Removing a set of in-range positions shortens a list by its size. */
  lemma {:induction false} KeepLength<T>(s: seq<T>, drop: set<int>)
    requires forall q :: q in drop ==> 0 <= q < |s|
    ensures |Keep(s, drop)| == |s| - |drop|
  {
    if |s| > 0 {
      var n := |s| - 1;
      var below := drop - {n};
      KeepLength(s[..n], below);
      KeepIgnoresBeyond(s[..n], below, n);
      assert Keep(s, drop) == Keep(s[..n], drop) + (if n in drop then [] else [s[n]]);
      if n in drop {
        assert drop == below + {n};
        assert |drop| == |below| + 1;
      } else {
        assert drop == below;
      }
    } else {
      assert forall q :: q !in drop;
      assert drop == {};
    }
  }

  /** The delete button: after confirmation, the selected rows are popped
      from all three lists in reverse order. */
  function DeleteData(reg: Registry, selection: seq<nat>, confirmed: bool): (r: Registry)
    requires reg.Parallel()
    requires AscendingPositions(selection, reg.Size())
    ensures r.Parallel()
    ensures !confirmed || |selection| == 0 ==> r == reg
    ensures confirmed ==> r.Size() == reg.Size() - |selection|
    ensures confirmed ==>
      var dropped := Members(selection);
      && r.crops == Keep(reg.crops, dropped)
      && r.areas == Keep(reg.areas, dropped)
      && r.inputs == Keep(reg.inputs, dropped)
  {
    if !confirmed then reg
    else if |selection| == 0 then
      KeepNothing(reg.crops);
      KeepNothing(reg.areas);
      KeepNothing(reg.inputs);
      assert Members(selection) == {};
      reg
    else
      PopReversedIsKeep(reg.crops, selection);
      PopReversedIsKeep(reg.areas, selection);
      PopReversedIsKeep(reg.inputs, selection);
      var dropped := Members(selection);
      DistinctSelectionSize(selection);
      KeepLength(reg.crops, dropped);
      KeepLength(reg.areas, dropped);
      KeepLength(reg.inputs, dropped);
      Registry(
        PopReversed(reg.crops, selection).value,
        PopReversed(reg.areas, selection).value,
        PopReversed(reg.inputs, selection).value)
  }

  /** Distinct positions form a set of the same size. */
  lemma {:induction false} DistinctSelectionSize(positions: seq<nat>)
    requires forall i, j :: 0 <= i < j < |positions| ==> positions[i] < positions[j]
    ensures |Members(positions)| == |positions|
  {
    if |positions| == 0 {
      assert Members(positions) == {};
    } else {
      var n := |positions| - 1;
      var rest := positions[..n];
      DistinctSelectionSize(rest);
      assert positions == rest + [positions[n]];
      MembersSnoc(rest, positions[n]);
      assert positions[n] !in Members(rest) by {
        assert forall i :: 0 <= i < n ==> rest[i] < positions[n];
      }
    }
  }

  // ---------------------------------------------------------------------------
  // Update

  /** How the edit dialog's save can fail: a field `float` refuses
      (ValueError, reported in a message box), or a position the lists no
      longer have because rows were deleted while the dialog was open
      (IndexError on the first assignment, which nothing catches). */
  datatype UpdateError = NotANumber | StaleIndex(index: nat)

  /** The save button of the edit dialog.  The dialog performs no positivity
      check: only a field that does not parse (None) aborts the update, and
      both fields are parsed before any list is written.  A failure writes
      nothing, so the lists stay as they were. */
  function SaveUpdates(reg: Registry, index: nat, crop: string, length: Option<real>, width: Option<real>): (r: Result<Registry, UpdateError>)
    requires reg.Parallel()
    ensures r.Err? <==> length.None? || width.None? || index >= reg.Size()
    ensures length.None? || width.None? ==> r == Err(NotANumber)
    ensures length.Some? && width.Some? && index >= reg.Size() ==> r == Err(StaleIndex(index))
    ensures r.Ok? ==> r.value.Parallel() && r.value.Size() == reg.Size()
    ensures r.Ok? ==> forall i :: 0 <= i < reg.Size() && i != index ==>
      r.value.crops[i] == reg.crops[i] && r.value.areas[i] == reg.areas[i] && r.value.inputs[i] == reg.inputs[i]
    ensures r.Ok? ==>
      && r.value.crops[index] == crop
      && r.value.areas[index] == PlotArea(crop, length.value, width.value)
      && r.value.inputs[index] == Inputs(crop, r.value.areas[index])
  {
    if length.None? || width.None? then Err(NotANumber)
    else if index >= reg.Size() then Err(StaleIndex(index))
    else
      var area := PlotArea(crop, length.value, width.value);
      Ok(Registry(reg.crops[index := crop], reg.areas[index := area], reg.inputs[index := Inputs(crop, area)]))
  }

  /** Deleting the last row while the edit dialog for it is open makes its
      save fail instead of writing past the end of the lists. */
  lemma {:induction false} DeleteThenSaveIsStale(reg: Registry, crop: string, length: real, width: real)
    requires reg.Parallel() && reg.Size() > 0
    ensures var index := reg.Size() - 1;
      var after := DeleteData(reg, [index], true);
      SaveUpdates(after, index, crop, Some(length), Some(width)) == Err(StaleIndex(index))
  {
  }

  // ---------------------------------------------------------------------------
  // CSV file

  const Header: seq<string> := ["Crop", "Area", "Input Needed"]

  /** The csv writer's cell for a value: `str` of a float, empty for None. */
  function Cell(v: Option<real>, repr: real -> string): string
  {
    match v
    case Some(x) => repr(x)
    case None => ""
  }

  /** The rows `save_to_csv` writes: the header, then one row per index. */
  function SaveToCsv(reg: Registry, repr: real -> string): (file: seq<seq<string>>)
    requires reg.Parallel()
    ensures |file| == reg.Size() + 1
    ensures file[0] == Header
    ensures forall i :: 0 <= i < reg.Size() ==>
      file[i + 1] == [reg.crops[i], repr(reg.areas[i]), Cell(reg.inputs[i], repr)]
  {
    [Header] + seq(reg.Size(), i requires 0 <= i < reg.Size() =>
      [reg.crops[i], repr(reg.areas[i]), Cell(reg.inputs[i], repr)])
  }

  datatype LoadError = NoHeader | BadRow(line: nat)

  /** A data row `load_from_csv` can append: a crop cell and two cells that
      `float` accepts; a shorter row fails on the index. */
  predicate CsvRow(row: seq<string>, parse: string -> Option<real>)
  {
    |row| >= 3 && parse(row[1]).Some? && parse(row[2]).Some?
  }

  /** Appends the data rows (everything after the header) to the lists;
      a row that is short or holds a non-number fails. */
  function LoadRows(reg: Registry, rows: seq<seq<string>>, parse: string -> Option<real>, line: nat): Result<Registry, LoadError>
    decreases |rows|
  {
    if |rows| == 0 then Ok(reg)
    else
      var row := rows[0];
      if !CsvRow(row, parse) then Err(BadRow(line))
      else
        var next := Registry(reg.crops + [row[0]], reg.areas + [parse(row[1]).value], reg.inputs + [parse(row[2])]);
        LoadRows(next, rows[1..], parse, line + 1)
  }

  /** `load_from_csv`: a missing file changes nothing; an empty file fails
      on the header; otherwise the data rows are appended after the entries
      already in the lists, and the first row `float` or indexing refuses
      stops the load. */
  function LoadFromCsv(reg: Registry, file: Option<seq<seq<string>>>, parse: string -> Option<real>): (r: Result<Registry, LoadError>)
    requires reg.Parallel()
    ensures file.None? ==> r == Ok(reg)
    ensures file == Some([]) ==> r == Err(NoHeader)
    ensures file.Some? && |file.value| > 0 ==>
      (r.Ok? <==> forall i :: 1 <= i < |file.value| ==> CsvRow(file.value[i], parse))
    ensures r.Ok? ==> r.value.Parallel()
    ensures r.Ok? && file.Some? ==> r.value.Size() == reg.Size() + |file.value| - 1
    ensures r.Ok? ==>
      && r.value.crops[..reg.Size()] == reg.crops
      && r.value.areas[..reg.Size()] == reg.areas
      && r.value.inputs[..reg.Size()] == reg.inputs
    ensures r.Ok? && file.Some? ==> forall i :: 1 <= i < |file.value| ==>
      && CsvRow(file.value[i], parse)
      && r.value.crops[reg.Size() + i - 1] == file.value[i][0]
      && r.value.areas[reg.Size() + i - 1] == parse(file.value[i][1]).value
      && r.value.inputs[reg.Size() + i - 1] == parse(file.value[i][2])
    ensures r.Err? && file.Some? && |file.value| > 0 ==>
      && r.error.BadRow?
      && 1 <= r.error.line < |file.value|
      && !CsvRow(file.value[r.error.line], parse)
      && forall i :: 1 <= i < r.error.line ==> CsvRow(file.value[i], parse)
  {
    match file
    case None => Ok(reg)
    case Some(rows) =>
      if |rows| == 0 then Err(NoHeader)
      else
        LoadRowsOutcome(reg, rows[1..], parse, 1);
        LoadRowsAppends(reg, rows[1..], parse, 1);
        var r := LoadRows(reg, rows[1..], parse, 1);
        assert r.Ok? ==> forall i :: 1 <= i < |rows| ==> rows[1..][i - 1] == rows[i];
        assert r.Err? ==> rows[1..][r.error.line - 1] == rows[r.error.line];
        r
  }

  /** Loading succeeds exactly when every row is one `load_from_csv` can
      append; otherwise it fails at the first row that is not. */
  lemma {:induction false} LoadRowsOutcome(reg: Registry, rows: seq<seq<string>>, parse: string -> Option<real>, line: nat)
    ensures LoadRows(reg, rows, parse, line).Ok? <==> forall i :: 0 <= i < |rows| ==> CsvRow(rows[i], parse)
    ensures var r := LoadRows(reg, rows, parse, line);
      r.Err? ==>
        && r.error.BadRow?
        && line <= r.error.line < line + |rows|
        && !CsvRow(rows[r.error.line - line], parse)
        && forall i :: 0 <= i < r.error.line - line ==> CsvRow(rows[i], parse)
    decreases |rows|
  {
    if |rows| > 0 && CsvRow(rows[0], parse) {
      var row := rows[0];
      var next := Registry(reg.crops + [row[0]], reg.areas + [parse(row[1]).value], reg.inputs + [parse(row[2])]);
      LoadRowsOutcome(next, rows[1..], parse, line + 1);
      var r := LoadRows(next, rows[1..], parse, line + 1);
      if r.Err? {
        assert rows[1..][r.error.line - (line + 1)] == rows[r.error.line - line];
        assert forall i :: 1 <= i < r.error.line - line ==> rows[1..][i - 1] == rows[i];
      } else {
        assert forall i :: 1 <= i < |rows| ==> rows[1..][i - 1] == rows[i];
      }
    }
  }

  /** A successful load keeps the lists' entries as a prefix and appends
      each row's crop and parsed numbers after them, in order. */
  lemma {:induction false} LoadRowsAppends(reg: Registry, rows: seq<seq<string>>, parse: string -> Option<real>, line: nat)
    requires reg.Parallel()
    ensures var r := LoadRows(reg, rows, parse, line);
      r.Ok? ==>
        && r.value.Parallel()
        && r.value.Size() == reg.Size() + |rows|
        && r.value.crops[..reg.Size()] == reg.crops
        && r.value.areas[..reg.Size()] == reg.areas
        && r.value.inputs[..reg.Size()] == reg.inputs
        && forall i :: 0 <= i < |rows| ==>
             && CsvRow(rows[i], parse)
             && r.value.crops[reg.Size() + i] == rows[i][0]
             && r.value.areas[reg.Size() + i] == parse(rows[i][1]).value
             && r.value.inputs[reg.Size() + i] == parse(rows[i][2])
    decreases |rows|
  {
    if |rows| > 0 && CsvRow(rows[0], parse) {
      var row := rows[0];
      var next := Registry(reg.crops + [row[0]], reg.areas + [parse(row[1]).value], reg.inputs + [parse(row[2])]);
      LoadRowsAppends(next, rows[1..], parse, line + 1);
      var r := LoadRows(next, rows[1..], parse, line + 1);
      if r.Ok? {
        AppendedPrefix(reg.crops, row[0], r.value.crops);
        AppendedPrefix(reg.areas, parse(row[1]).value, r.value.areas);
        AppendedPrefix(reg.inputs, parse(row[2]), r.value.inputs);
        assert forall i :: 1 <= i < |rows| ==> rows[1..][i - 1] == rows[i];
      }
    }
  }

  /** A list that starts with `xs + [x]` starts with `xs` and holds `x` next. */
  lemma AppendedPrefix<T>(xs: seq<T>, x: T, ys: seq<T>)
    requires |ys| >= |xs| + 1 && ys[..|xs| + 1] == xs + [x]
    ensures ys[..|xs|] == xs && ys[|xs|] == x
  {
    assert ys[..|xs|] == ys[..|xs| + 1][..|xs|];
  }

  /** `float(str(x)) == x`: the number format round-trips. */
  ghost predicate RoundTrips(repr: real -> string, parse: string -> Option<real>)
  {
    forall x :: parse(repr(x)) == Some(x)
  }

  lemma RoundTripAt(repr: real -> string, parse: string -> Option<real>, x: real)
    requires RoundTrips(repr, parse)
    ensures parse(repr(x)) == Some(x)
  {
  }

  ghost predicate AllInputsKnown(reg: Registry)
  {
    forall i :: 0 <= i < |reg.inputs| ==> reg.inputs[i].Some?
  }

  /** Loading the rows of a saved registry after `base` appends that registry
      to `base`. */
  lemma {:induction false} LoadSavedRows(base: Registry, reg: Registry, repr: real -> string, parse: string -> Option<real>, line: nat)
    requires base.Parallel() && reg.Parallel()
    requires RoundTrips(repr, parse)
    requires AllInputsKnown(reg)
    ensures LoadRows(base, SaveToCsv(reg, repr)[1..], parse, line)
         == Ok(Registry(base.crops + reg.crops, base.areas + reg.areas, base.inputs + reg.inputs))
    decreases reg.Size()
  {
    var rows := SaveToCsv(reg, repr)[1..];
    if reg.Size() == 0 {
      assert rows == [];
      assert base.crops + reg.crops == base.crops;
      assert base.areas + reg.areas == base.areas;
      assert base.inputs + reg.inputs == base.inputs;
    } else {
      var row := rows[0];
      assert row == [reg.crops[0], repr(reg.areas[0]), Cell(reg.inputs[0], repr)];
      assert row[1] == repr(reg.areas[0]);
      RoundTripAt(repr, parse, reg.areas[0]);
      RoundTripAt(repr, parse, reg.inputs[0].value);
      assert parse(row[2]) == reg.inputs[0];
      var next := Registry(base.crops + [reg.crops[0]], base.areas + [reg.areas[0]], base.inputs + [reg.inputs[0]]);
      var tail := Registry(reg.crops[1..], reg.areas[1..], reg.inputs[1..]);
      assert SaveToCsv(tail, repr)[1..] == rows[1..];
      LoadSavedRows(next, tail, repr, parse, line + 1);
      MoveHead(base.crops, reg.crops);
      MoveHead(base.areas, reg.areas);
      MoveHead(base.inputs, reg.inputs);
    }
  }

  /** Moving the head of `xs` onto the end of `base` keeps the concatenation. */
  lemma MoveHead<T>(base: seq<T>, xs: seq<T>)
    requires |xs| > 0
    ensures (base + [xs[0]]) + xs[1..] == base + xs
  {
    assert xs == [xs[0]] + xs[1..];
  }

  /** Saving and loading into empty lists reproduces the lists. */
  lemma SaveLoadRoundTrip(reg: Registry, repr: real -> string, parse: string -> Option<real>)
    requires reg.Parallel()
    requires RoundTrips(repr, parse)
    requires AllInputsKnown(reg)
    ensures LoadFromCsv(Empty, Some(SaveToCsv(reg, repr)), parse) == Ok(reg)
  {
    LoadSavedRows(Empty, reg, repr, parse, 1);
    assert Empty.crops + reg.crops == reg.crops;
    assert Empty.areas + reg.areas == reg.areas;
    assert Empty.inputs + reg.inputs == reg.inputs;
  }

  /** A row whose input is None is saved with an empty cell, which `float`
      refuses, so the saved file no longer loads. */
  lemma UnknownInputBreaksLoad(reg: Registry, k: nat, repr: real -> string, parse: string -> Option<real>)
    requires reg.Parallel()
    requires RoundTrips(repr, parse)
    requires parse("") == None
    requires k < reg.Size() && reg.inputs[k].None?
    requires forall i :: 0 <= i < k ==> reg.inputs[i].Some?
    ensures LoadFromCsv(Empty, Some(SaveToCsv(reg, repr)), parse) == Err(BadRow(k + 1))
  {
    var rows := SaveToCsv(reg, repr)[1..];
    SavedRowsBeforeUnknown(reg, k, repr, parse);
    LoadPrefixThenFail(Empty, rows, parse, 1, k);
  }

  /** The saved rows before the first `None` input parse; that row's input
      cell does not. */
  lemma SavedRowsBeforeUnknown(reg: Registry, k: nat, repr: real -> string, parse: string -> Option<real>)
    requires reg.Parallel()
    requires RoundTrips(repr, parse)
    requires parse("") == None
    requires k < reg.Size() && reg.inputs[k].None?
    requires forall i :: 0 <= i < k ==> reg.inputs[i].Some?
    ensures var rows := SaveToCsv(reg, repr)[1..];
      && k < |rows|
      && (forall i :: 0 <= i < k ==> |rows[i]| >= 3 && parse(rows[i][1]).Some? && parse(rows[i][2]).Some?)
      && |rows[k]| >= 3 && parse(rows[k][2]).None?
  {
    var rows := SaveToCsv(reg, repr)[1..];
    forall i | 0 <= i < k
      ensures |rows[i]| >= 3 && parse(rows[i][1]).Some? && parse(rows[i][2]).Some?
    {
      assert rows[i] == [reg.crops[i], repr(reg.areas[i]), Cell(reg.inputs[i], repr)];
      RoundTripAt(repr, parse, reg.areas[i]);
      RoundTripAt(repr, parse, reg.inputs[i].value);
    }
    assert rows[k] == [reg.crops[k], repr(reg.areas[k]), ""];
  }

  /** Loading walks the first k well-formed rows and then stops at row k + 1. */
  lemma {:induction false} LoadPrefixThenFail(reg: Registry, rows: seq<seq<string>>, parse: string -> Option<real>, line: nat, k: nat)
    requires k < |rows|
    requires forall i :: 0 <= i < k ==> |rows[i]| >= 3 && parse(rows[i][1]).Some? && parse(rows[i][2]).Some?
    requires |rows[k]| >= 3 && parse(rows[k][2]).None?
    ensures LoadRows(reg, rows, parse, line) == Err(BadRow(line + k))
    decreases k
  {
    if k > 0 {
      var row := rows[0];
      var next := Registry(reg.crops + [row[0]], reg.areas + [parse(row[1]).value], reg.inputs + [parse(row[2])]);
      LoadPrefixThenFail(next, rows[1..], parse, line + 1, k - 1);
    }
  }
}

=== FILE: crop_table.dfy ===
/** The web crop form: one table of rows (Crop, Area, Input Needed), the add
    form, deletion of 1-based row numbers, the edit form with its prefilled
    dimensions, and the data file the table is saved to and loaded from. */
module CropTable {
  import opened Basics
  import CropRegistry

  datatype Row = Row(crop: string, area: real, inputNeeded: real)

  /** The columns every table has, in order; `Row` holds one value per column. */
  const Columns: seq<string> := ["Crop", "Area", "Input Needed"]

  /** `calculate_inputs` of the web form: the per-crop rate times the area,
      and 0 for a crop without a rate. */
  function CalculateInputs(crop: string, area: real): (r: real)
    ensures crop == "Corn" ==> r == area * 200.0
    ensures crop == "Coffee" ==> r == area * 0.5
    ensures crop !in CropRegistry.ValidCrops ==> r == 0.0
  {
    CropRegistry.Inputs(crop, area).GetOr(0.0)
  }

  /** Where both front-ends know the crop, they compute the same input. */
  lemma FrontEndsAgree(crop: string, area: real)
    requires crop in CropRegistry.ValidCrops
    ensures CropRegistry.Inputs(crop, area) == Some(CalculateInputs(crop, area))
  {
  }

  /** A row whose stored input is the one its crop and area call for. */
  predicate Consistent(row: Row)
  {
    row.inputNeeded == CalculateInputs(row.crop, row.area)
  }

  /** The row the add and edit forms write for a crop and its dimensions. */
  function MakeRow(crop: string, length: real, width: real): (row: Row)
    ensures Consistent(row)
    ensures row.crop == crop
    ensures crop == "Corn" ==> row.area == length * width
    ensures crop != "Corn" ==> row.area == CropRegistry.Pi * length * length
    ensures length > 0.0 && width > 0.0 ==> row.area > 0.0
  {
    var area := CropRegistry.PlotArea(crop, length, width);
    if length > 0.0 && width > 0.0 then
      CropRegistry.PlotAreaPositive(crop, length, width);
      Row(crop, area, CalculateInputs(crop, area))
    else
      Row(crop, area, CalculateInputs(crop, area))
  }

  /** Submitting the add form appends one row at the end. */
  function AddRow(table: seq<Row>, crop: string, length: real, width: real): (r: seq<Row>)
    ensures |r| == |table| + 1
    ensures r[..|table|] == table
    ensures r[|table|].crop == crop && Consistent(r[|table|])
    ensures r[|table|].area == CropRegistry.PlotArea(crop, length, width)
    ensures length > 0.0 && width > 0.0 ==> r[|table|].area > 0.0
  {
    table + [MakeRow(crop, length, width)]
  }

  datatype TableError =
    | UnknownLabel(position: int)
    | RowOutOfRange(index: int)
    | UnknownCrop(crop: string)
    | NegativeSquareRoot
    | BelowMinValue(value: real)
    | EmptyData
    | UnexpectedHeader
    | BadLine(line: nat)

  /** The first 0-based label of a selection that is not a row, if any. */
  function FirstUnknownLabel(table: seq<Row>, selected: seq<int>): Option<int>
  {
    if |selected| == 0 then None
    else if !(1 <= selected[0] <= |table|) then Some(selected[0] - 1)
    else FirstUnknownLabel(table, selected[1..])
  }

  /** The 0-based labels of a selection of 1-based row numbers. */
  function Labels(selected: seq<int>): set<int>
  {
    set i | i in selected :: i - 1
  }

  /** The delete button: the chosen 1-based row numbers, in whatever order
      they were picked, are dropped by 0-based label; the rest keep their order
      and are renumbered from 1.  A number that is not a row fails (KeyError). */
  function DeleteRows(table: seq<Row>, selected: seq<int>): (r: Result<seq<Row>, TableError>)
    ensures |selected| == 0 ==> r == Ok(table)
    ensures r.Err? <==> exists i :: 0 <= i < |selected| && !(1 <= selected[i] <= |table|)
    ensures r.Ok? ==> r.value == CropRegistry.Keep(table, Labels(selected))
    ensures r.Ok? ==> |r.value| == |table| - |Labels(selected)|
  {
    if |selected| == 0 then
      CropRegistry.KeepNothing(table);
      assert Labels(selected) == {};
      Ok(table)
    else
      match FirstUnknownLabel(table, selected)
      case Some(l) =>
        FirstUnknownLabelFound(table, selected);
        Err(UnknownLabel(l))
      case None =>
        FirstUnknownLabelFound(table, selected);
        assert forall q :: q in Labels(selected) ==> 0 <= q < |table|;
        CropRegistry.KeepLength(table, Labels(selected));
        Ok(CropRegistry.Keep(table, Labels(selected)))
  }

  lemma {:induction false} FirstUnknownLabelFound(table: seq<Row>, selected: seq<int>)
    ensures FirstUnknownLabel(table, selected).Some? <==> exists i :: 0 <= i < |selected| && !(1 <= selected[i] <= |table|)
  {
    if |selected| > 0 {
      FirstUnknownLabelFound(table, selected[1..]);
      assert forall i :: 1 <= i < |selected| ==> selected[i] == selected[1..][i - 1];
      if FirstUnknownLabel(table, selected[1..]).Some? {
        var i :| 0 <= i < |selected[1..]| && !(1 <= selected[1..][i] <= |table|);
        assert !(1 <= selected[i + 1] <= |table|);
      }
    }
  }

  /** Deleting a selection with the web form removes the same rows as popping
      their ascending positions from the back, as the desktop form does. */
  lemma DeleteMatchesDesktop(table: seq<Row>, selected: seq<int>, positions: seq<nat>)
    requires CropRegistry.AscendingPositions(positions, |table|)
    requires CropRegistry.Members(positions) == Labels(selected)
    requires forall i :: 0 <= i < |selected| ==> 1 <= selected[i] <= |table|
    ensures DeleteRows(table, selected).Ok?
    ensures CropRegistry.PopReversed(table, positions) == Some(DeleteRows(table, selected).value)
  {
    CropRegistry.PopReversedIsKeep(table, positions);
    if |selected| == 0 {
      assert Labels(selected) == {};
      CropRegistry.KeepNothing(table);
    }
  }

  /** The edit form's update: the row at `rowIdx` is rewritten from the
      submitted crop and dimensions; every other row is unchanged.  An index
      that is no longer a row fails (IndexError of `iloc`). */
  function UpdateRow(table: seq<Row>, rowIdx: int, crop: string, length: real, width: real): (r: Result<seq<Row>, TableError>)
    ensures r.Err? <==> !(0 <= rowIdx < |table|)
    ensures r.Ok? ==> |r.value| == |table|
    ensures r.Ok? ==> forall i :: 0 <= i < |table| && i != rowIdx ==> r.value[i] == table[i]
    ensures r.Ok? ==> r.value[rowIdx].crop == crop && Consistent(r.value[rowIdx])
    ensures r.Ok? ==> r.value[rowIdx].area == CropRegistry.PlotArea(crop, length, width)
  {
    if !(0 <= rowIdx < |table|) then Err(RowOutOfRange(rowIdx))
    else Ok(table[rowIdx := MakeRow(crop, length, width)])
  }

  /** Adding and updating keep every row consistent. */
  lemma EditsKeepRowsConsistent(table: seq<Row>, rowIdx: int, crop: string, length: real, width: real)
    requires forall i :: 0 <= i < |table| ==> Consistent(table[i])
    ensures forall i :: 0 <= i < |table| + 1 ==> Consistent(AddRow(table, crop, length, width)[i])
    ensures UpdateRow(table, rowIdx, crop, length, width).Ok? ==>
      forall i :: 0 <= i < |table| ==> Consistent(UpdateRow(table, rowIdx, crop, length, width).value[i])
  {
    var added := AddRow(table, crop, length, width);
    assert forall i :: 0 <= i < |table| ==> added[i] == table[i];
  }

  /** A square root as `math.sqrt` computes it on non-negative arguments. */
  ghost predicate IsSqrt(sqrt: real -> real)
  {
    forall x :: x >= 0.0 ==> sqrt(x) >= 0.0 && sqrt(x) * sqrt(x) == x
  }

  /** The smallest value the form's number inputs accept (`min_value`). */
  const MinValue: real := 0.1

  /** The dimensions the edit form is prefilled with: a square of the stored
      area for Corn, and for Coffee the radius of a circle of that area (the
      width field is disabled and shows 1.0).  A crop outside the list fails
      the selectbox lookup (ValueError), the square root of a negative number
      fails (ValueError), and a prefilled value below `min_value` makes the
      number input raise. */
  function Prefill(row: Row, sqrt: real -> real): (r: Result<(real, real), TableError>)
    ensures row.crop !in CropRegistry.ValidCrops ==> r == Err(UnknownCrop(row.crop))
    ensures row.crop in CropRegistry.ValidCrops && row.area < 0.0 ==> r == Err(NegativeSquareRoot)
    ensures row.crop == "Corn" && row.area >= 0.0 ==> (r.Ok? <==> sqrt(row.area) >= MinValue)
    ensures row.crop == "Coffee" && row.area >= 0.0 ==> (r.Ok? <==> sqrt(row.area / CropRegistry.Pi) >= MinValue)
    ensures r.Ok? ==> r.value.0 >= MinValue && r.value.1 >= MinValue
    ensures r.Ok? && row.crop == "Coffee" ==> r.value.1 == 1.0
  {
    if row.crop !in CropRegistry.ValidCrops then Err(UnknownCrop(row.crop))
    else if row.area < 0.0 then Err(NegativeSquareRoot)
    else if row.crop == "Corn" then
      var side := sqrt(row.area);
      if side < MinValue then Err(BelowMinValue(side)) else Ok((side, side))
    else
      var radius := sqrt(row.area / CropRegistry.Pi);
      if radius < MinValue then Err(BelowMinValue(radius)) else Ok((radius, 1.0))
  }

  /** A non-negative root is at least 0.1 exactly when its square is at
      least 0.01. */
  lemma RootAtLeastMin(x: real, root: real)
    requires root >= 0.0 && root * root == x
    ensures root >= MinValue <==> x >= MinValue * MinValue
  {
    assert MinValue * MinValue == 0.01;
    if root >= MinValue {
      assert root * root >= 0.1 * root >= 0.01;
    } else {
      assert root * root <= 0.1 * root < 0.01;
    }
  }

  /** With a true square root, the edit form opens exactly for a listed crop
      whose stored area is at least the area of the smallest plot the form
      accepts: 0.01 for a Corn square and pi * 0.01 for a Coffee circle. */
  lemma PrefillSucceeds(row: Row, sqrt: real -> real)
    requires IsSqrt(sqrt)
    ensures Prefill(row, sqrt).Ok? <==>
      || (row.crop == "Corn" && row.area >= MinValue * MinValue)
      || (row.crop == "Coffee" && row.area >= CropRegistry.Pi * (MinValue * MinValue))
  {
    if row.crop == "Corn" && row.area >= 0.0 {
      RootAtLeastMin(row.area, sqrt(row.area));
    } else if row.crop == "Coffee" && row.area >= 0.0 {
      var q := row.area / CropRegistry.Pi;
      RootAtLeastMin(q, sqrt(q));
      assert row.area == CropRegistry.Pi * q;
    }
  }

  /** The prefilled dimensions describe the stored area again: a square of
      side sqrt(area) for Corn, and a circle of radius sqrt(area / pi) for
      Coffee. */
  lemma PrefillInvertsArea(row: Row, sqrt: real -> real)
    requires IsSqrt(sqrt)
    requires Prefill(row, sqrt).Ok?
    ensures CropRegistry.PlotArea(row.crop, Prefill(row, sqrt).value.0, Prefill(row, sqrt).value.1) == row.area
  {
    if row.crop == "Corn" {
      assert sqrt(row.area) * sqrt(row.area) == row.area;
    } else {
      var q := row.area / CropRegistry.Pi;
      assert q >= 0.0;
      assert sqrt(q) * sqrt(q) == q;
      assert CropRegistry.CircleArea(sqrt(q)) == CropRegistry.Pi * (sqrt(q) * sqrt(q));
    }
  }

  /** Submitting the edit form with its prefilled values unchanged leaves a
      consistent table exactly as it was. */
  lemma PrefillRoundTrip(table: seq<Row>, rowIdx: int, sqrt: real -> real)
    requires IsSqrt(sqrt)
    requires 0 <= rowIdx < |table|
    requires Consistent(table[rowIdx])
    requires Prefill(table[rowIdx], sqrt).Ok?
    ensures UpdateRow(table, rowIdx, table[rowIdx].crop,
                      Prefill(table[rowIdx], sqrt).value.0, Prefill(table[rowIdx], sqrt).value.1) == Ok(table)
  {
    var row := table[rowIdx];
    PrefillInvertsArea(row, sqrt);
    var dims := Prefill(row, sqrt).value;
    assert MakeRow(row.crop, dims.0, dims.1) == row;
    assert table[rowIdx := row] == table;
  }

  // ---------------------------------------------------------------------------
  // Data file

  /** `df.to_csv(DATA_FILE, index=False)`: the header, then one line per row
      with the two numbers written by `repr`. */
  function SaveTable(table: seq<Row>, repr: real -> string): (file: seq<seq<string>>)
    ensures |file| == |table| + 1
    ensures file[0] == Columns
    ensures forall i :: 0 <= i < |table| ==>
      file[i + 1] == [table[i].crop, repr(table[i].area), repr(table[i].inputNeeded)]
  {
    [Columns] + seq(|table|, i requires 0 <= i < |table| =>
      [table[i].crop, repr(table[i].area), repr(table[i].inputNeeded)])
  }

  /** A data line the table can hold: three cells whose last two are numbers. */
  predicate TableLine(cells: seq<string>, parse: string -> Option<real>)
  {
    |cells| == 3 && parse(cells[1]).Some? && parse(cells[2]).Some?
  }

  /** The data lines of the file, read one row per line; the first line that
      is not a table line fails with its 1-based line number. */
  function ReadRows(lines: seq<seq<string>>, parse: string -> Option<real>, line: nat): (r: Result<seq<Row>, TableError>)
    ensures r.Ok? <==> forall i :: 0 <= i < |lines| ==> TableLine(lines[i], parse)
    ensures r.Ok? ==> |r.value| == |lines|
    ensures r.Ok? ==> forall i :: 0 <= i < |lines| ==>
      r.value[i] == Row(lines[i][0], parse(lines[i][1]).value, parse(lines[i][2]).value)
    ensures r.Err? ==> r.error.BadLine? && line <= r.error.line < line + |lines|
    ensures r.Err? ==> !TableLine(lines[r.error.line - line], parse)
    ensures r.Err? ==> forall i :: 0 <= i < r.error.line - line ==> TableLine(lines[i], parse)
    decreases |lines|
  {
    if |lines| == 0 then Ok([])
    else if !TableLine(lines[0], parse) then Err(BadLine(line))
    else
      var first := Row(lines[0][0], parse(lines[0][1]).value, parse(lines[0][2]).value);
      match ReadRows(lines[1..], parse, line + 1)
      case Err(e) =>
        assert lines[1..][e.line - (line + 1)] == lines[e.line - line];
        Err(e)
      case Ok(rest) => Ok([first] + rest)
  }

  /** `load_from_csv`: no file gives the empty table; a file with no line at
      all fails as `pd.read_csv` does (EmptyDataError); otherwise the header
      must name the three columns and every data line becomes a row. */
  function LoadTable(file: Option<seq<seq<string>>>, parse: string -> Option<real>): (r: Result<seq<Row>, TableError>)
    ensures file.None? ==> r == Ok([])
    ensures file == Some([]) ==> r == Err(EmptyData)
    ensures file.Some? && |file.value| > 0 && file.value[0] != Columns ==> r == Err(UnexpectedHeader)
    ensures r.Ok? && file.Some? ==>
      && |r.value| == |file.value| - 1
      && forall i :: 0 <= i < |r.value| ==>
           && TableLine(file.value[i + 1], parse)
           && r.value[i].crop == file.value[i + 1][0]
           && parse(file.value[i + 1][1]) == Some(r.value[i].area)
           && parse(file.value[i + 1][2]) == Some(r.value[i].inputNeeded)
  {
    match file
    case None => Ok([])
    case Some(lines) =>
      if |lines| == 0 then Err(EmptyData)
      else if lines[0] != Columns then Err(UnexpectedHeader)
      else ReadRows(lines[1..], parse, 2)
  }

  /** Every saved data line reads back as the row it was written from. */
  lemma SavedLinesReadBack(table: seq<Row>, repr: real -> string, parse: string -> Option<real>, i: int)
    requires CropRegistry.RoundTrips(repr, parse)
    requires 0 <= i < |table|
    ensures TableLine(SaveTable(table, repr)[i + 1], parse)
    ensures var cells := SaveTable(table, repr)[i + 1];
      Row(cells[0], parse(cells[1]).value, parse(cells[2]).value) == table[i]
  {
    CropRegistry.RoundTripAt(repr, parse, table[i].area);
    CropRegistry.RoundTripAt(repr, parse, table[i].inputNeeded);
  }

  /** Saving a table and loading the file back gives the same table, when
      the number format round-trips. */
  lemma TableRoundTrip(table: seq<Row>, repr: real -> string, parse: string -> Option<real>)
    requires CropRegistry.RoundTrips(repr, parse)
    ensures LoadTable(Some(SaveTable(table, repr)), parse) == Ok(table)
  {
    var lines := SaveTable(table, repr)[1..];
    forall i | 0 <= i < |lines|
      ensures TableLine(lines[i], parse)
      ensures Row(lines[i][0], parse(lines[i][1]).value, parse(lines[i][2]).value) == table[i]
    {
      SavedLinesReadBack(table, repr, parse, i);
    }
    assert ReadRows(lines, parse, 2).value == table;
  }
}

=== FILE: crop_yield.dfy ===
/** The crop-yield analysis script: the choice of the cluster count by
    silhouette score, the per-cluster IQR outlier flags, the columns and
    feature names handed to the regressors, the ">10%" rule of the cluster
    summary, and the choice of the best regressor.  Scores, quantiles and
    metrics come from the learning library and are inputs here. */
module CropYield {
  import opened Basics
  import Grouping

  // ---------------------------------------------------------------------
  // Number of clusters
  // ---------------------------------------------------------------------

  /** The cluster counts tried, 2 to 10. */
  const KRange: seq<int> := [2, 3, 4, 5, 6, 7, 8, 9, 10]

  /** The silhouette score of each k in `KRange` is given, in that order; the
      chosen k has the highest score, and among equal scores the smallest k
      wins (the first occurrence of the maximum). */
  method OptimalK(scores: seq<real>) returns (k: int)
    requires |scores| == |KRange|
    ensures 2 <= k <= 10
    ensures forall j :: 0 <= j < |scores| ==> scores[j] <= scores[k - 2]
    ensures forall j :: 0 <= j < k - 2 ==> scores[j] < scores[k - 2]
  {
    var i := FirstArgMax(scores);
    assert KRange[i] == i + 2;
    k := KRange[i];
  }

  // ---------------------------------------------------------------------
  // Outliers within clusters
  // ---------------------------------------------------------------------

  /** A clustered row: its cluster label and its feature values, one per
      clustering feature. */
  datatype Sample = Sample(cluster: int, features: seq<real>)

  /** The first and third quartile of one feature within one cluster. */
  datatype Quartiles = Quartiles(q1: real, q3: real)

  /** The fences 1.5 interquartile ranges below Q1 and above Q3; when the
      quartiles are ordered the fences enclose them. */
  function Fences(q: Quartiles): (r: (real, real))
    ensures q.q1 <= q.q3 ==> r.0 <= q.q1 && q.q3 <= r.1
    ensures r.1 - r.0 == 4.0 * (q.q3 - q.q1)
  {
    var iqr := q.q3 - q.q1;
    (q.q1 - 1.5 * iqr, q.q3 + 1.5 * iqr)
  }

  /** A value strictly outside the fences. */
  predicate OutsideFences(x: real, q: Quartiles)
  {
    x < Fences(q).0 || x > Fences(q).1
  }

  /** Some feature among the first `f` lies outside its cluster's fences. */
  predicate FlaggedUpTo(s: Sample, f: nat, quartile: (int, nat) -> Quartiles)
  {
    exists g :: 0 <= g < f && g < |s.features| && OutsideFences(s.features[g], quartile(s.cluster, g))
  }

  /** The reference definition: a row is an outlier exactly when one of the
      `nf` clustering features lies outside the fences of its own cluster. */
  predicate IsOutlier(s: Sample, nf: nat, quartile: (int, nat) -> Quartiles)
  {
    FlaggedUpTo(s, nf, quartile)
  }

  /** The cluster label column. */
  function ClusterColumn(samples: seq<Sample>): (r: seq<int>)
    ensures |r| == |samples|
    ensures forall i :: 0 <= i < |samples| ==> r[i] == samples[i].cluster
  {
    if |samples| == 0 then []
    else ClusterColumn(samples[..|samples| - 1]) + [samples[|samples| - 1].cluster]
  }

  /** One `.loc[..., 'is_outlier'] = True` step for one cluster and one
      feature: it only raises flags, and it raises exactly those of the
      cluster's rows whose value lies outside the fences. */
  function MarkOutliers(flags: seq<bool>, samples: seq<Sample>, cluster: int, f: nat,
                        quartile: (int, nat) -> Quartiles): (r: seq<bool>)
    requires |flags| == |samples|
    ensures |r| == |flags|
    ensures forall i :: 0 <= i < |r| && flags[i] ==> r[i]
    ensures forall i :: 0 <= i < |r| && r[i] && !flags[i] ==>
      samples[i].cluster == cluster && f < |samples[i].features| &&
      OutsideFences(samples[i].features[f], quartile(cluster, f))
    ensures forall i :: (0 <= i < |r| && samples[i].cluster == cluster && f < |samples[i].features| &&
                         OutsideFences(samples[i].features[f], quartile(cluster, f))) ==> r[i]
  {
    seq(|flags|, i requires 0 <= i < |flags| =>
      flags[i] || (samples[i].cluster == cluster && f < |samples[i].features| &&
                   OutsideFences(samples[i].features[f], quartile(cluster, f))))
  }

  /** Looking at one more feature adds exactly that feature's test. */
  lemma FlaggedUpToNext(s: Sample, f: nat, quartile: (int, nat) -> Quartiles)
    requires f < |s.features|
    ensures FlaggedUpTo(s, f + 1, quartile) <==>
      FlaggedUpTo(s, f, quartile) || OutsideFences(s.features[f], quartile(s.cluster, f))
  {
    if FlaggedUpTo(s, f + 1, quartile) && !OutsideFences(s.features[f], quartile(s.cluster, f)) {
      var g :| 0 <= g < f + 1 && g < |s.features| && OutsideFences(s.features[g], quartile(s.cluster, g));
      assert g < f;
    }
  }

  /** `identify_cluster_outliers`: every flag starts false; for each cluster
      in ascending order and each feature, the rows of that cluster outside
      the fences are flagged.  The result is the reference definition. */
  method FlagOutliers(samples: seq<Sample>, nf: nat, quartile: (int, nat) -> Quartiles) returns (flags: seq<bool>)
    requires forall i :: 0 <= i < |samples| ==> |samples[i].features| == nf
    ensures |flags| == |samples|
    ensures forall i :: 0 <= i < |samples| ==> (flags[i] <==> IsOutlier(samples[i], nf, quartile))
  {
    flags := seq(|samples|, _ => false);
    var clusters := Grouping.DistinctKeys(ClusterColumn(samples));
    for c := 0 to |clusters|
      invariant |flags| == |samples|
      invariant forall i :: 0 <= i < |samples| ==>
        (flags[i] <==> samples[i].cluster in clusters[..c] && FlaggedUpTo(samples[i], nf, quartile))
    {
      for f := 0 to nf
        invariant |flags| == |samples|
        invariant forall i :: 0 <= i < |samples| ==>
          (flags[i] <==> (samples[i].cluster in clusters[..c] && FlaggedUpTo(samples[i], nf, quartile)) ||
                         (samples[i].cluster == clusters[c] && FlaggedUpTo(samples[i], f, quartile)))
      {
        var before := flags;
        flags := MarkOutliers(flags, samples, clusters[c], f, quartile);
        forall i | 0 <= i < |samples|
          ensures flags[i] <==> (samples[i].cluster in clusters[..c] && FlaggedUpTo(samples[i], nf, quartile)) ||
                                (samples[i].cluster == clusters[c] && FlaggedUpTo(samples[i], f + 1, quartile))
        {
          FlaggedUpToNext(samples[i], f, quartile);
        }
      }
      assert clusters[..c + 1] == clusters[..c] + [clusters[c]];
    }
    forall i | 0 <= i < |samples|
      ensures samples[i].cluster in clusters
    {
      assert ClusterColumn(samples)[i] == samples[i].cluster;
    }
    assert clusters[..|clusters|] == clusters;
  }

  // ---------------------------------------------------------------------
  // Columns and feature names for the regressors
  // ---------------------------------------------------------------------

  /** The columns added by the clustering analysis. */
  const ClusteringColumns: seq<string> := ["Cluster", "is_outlier"]

  /** The test `drop` keeps a column by: it is not one of the names. */
  function NotNamed(names: seq<string>): string -> bool
  {
    (c: string) => c !in names
  }

  /** Dropping the named columns that are present: every other column stays,
      in its order, and a name that is absent is no error. */
  function DropColumns(columns: seq<string>, names: seq<string>): (r: seq<string>)
    ensures r == Filter(columns, NotNamed(names))
    ensures forall c :: c in r <==> c in columns && c !in names
    ensures |r| <= |columns|
    ensures (forall i :: 0 <= i < |columns| ==> columns[i] !in names) ==> r == columns
  {
    if |columns| == 0 then []
    else
      var rest := DropColumns(columns[..|columns| - 1], names);
      var last := columns[|columns| - 1];
      assert columns == columns[..|columns| - 1] + [last];
      if last in names then rest else rest + [last]
  }

  /** Dropping twice drops nothing more. */
  lemma {:induction false} DropColumnsIdempotent(columns: seq<string>, names: seq<string>)
    ensures DropColumns(DropColumns(columns, names), names) == DropColumns(columns, names)
  {
    var r := DropColumns(columns, names);
    assert forall i :: 0 <= i < |r| ==> r[i] in r;
  }

  datatype PrepError = MissingTarget(target: string)

  /** `prepare_data_for_modeling` up to the split: the clustering columns
      are removed where present, then the target column is separated out;
      a target that is not left among the columns fails (KeyError). */
  function FeatureColumns(columns: seq<string>, target: string): (r: Result<seq<string>, PrepError>)
    ensures r.Err? <==> target !in columns || target in ClusteringColumns
    ensures r.Ok? ==> forall c :: c in r.value <==> c in columns && c !in ClusteringColumns && c != target
    ensures r.Ok? ==> r.value == Filter(Filter(columns, NotNamed(ClusteringColumns)), NotNamed([target]))
  {
    var model := DropColumns(columns, ClusteringColumns);
    if target !in model then Err(MissingTarget(target))
    else Ok(DropColumns(model, [target]))
  }

  /** The number of categories of one column that get a name: all but the first. */
  function Kept(categories: seq<string>): nat
  {
    if |categories| == 0 then 0 else |categories| - 1
  }

  /** The name one-hot encoding gives a category of a column. */
  function EncodedName(column: string, value: string): string
  {
    column + "_" + value
  }

  /** The encoded names of one categorical column: "{column}_{value}" for
      every category but the first, which is dropped. */
  function EncodedColumn(column: string, categories: seq<string>): (r: seq<string>)
    ensures |r| == Kept(categories)
    ensures forall j :: 1 <= j < |categories| ==> r[j - 1] == EncodedName(column, categories[j])
  {
    if |categories| <= 1 then []
    else seq(|categories| - 1, j requires 0 <= j < |categories| - 1 => EncodedName(column, categories[j + 1]))
  }

  /** The number of encoded columns: one less than the categories of each column. */
  function EncodedCount(categories: seq<seq<string>>): nat
  {
    if |categories| == 0 then 0
    else Kept(categories[0]) + EncodedCount(categories[1..])
  }

  /** The encoded names of all categorical columns, column by column. */
  function EncodedNames(columns: seq<string>, categories: seq<seq<string>>): (r: seq<string>)
    requires |columns| == |categories|
    ensures |r| == EncodedCount(categories)
  {
    if |columns| == 0 then []
    else EncodedColumn(columns[0], categories[0]) + EncodedNames(columns[1..], categories[1..])
  }

  /** Where the encoded names of column `i` start: after the names of every
      column before it. */
  function Offset(categories: seq<seq<string>>, i: nat): nat
    requires i <= |categories|
  {
    if i == 0 then 0 else Kept(categories[0]) + Offset(categories[1..], i - 1)
  }

  /** Where each encoded name sits: the `j`-th category (j >= 1) of column
      `i` is named "{column}_{value}" and follows the names of the columns
      before it. */
  lemma {:induction false} EncodedNameAt(columns: seq<string>, categories: seq<seq<string>>, i: nat, j: nat)
    requires |columns| == |categories|
    requires i < |columns| && 1 <= j < |categories[i]|
    ensures Offset(categories, i) + j - 1 < |EncodedNames(columns, categories)|
    ensures EncodedNames(columns, categories)[Offset(categories, i) + j - 1] == EncodedName(columns[i], categories[i][j])
  {
    if i == 0 {
      EncodedNameFirst(columns, categories, j);
    } else {
      EncodedNameAt(columns[1..], categories[1..], i - 1, j);
      assert columns[1..][i - 1] == columns[i] && categories[1..][i - 1] == categories[i];
      EncodedNameLater(columns, categories, Offset(categories[1..], i - 1) + j - 1);
    }
  }

  /** The first column's names come first. */
  lemma EncodedNameFirst(columns: seq<string>, categories: seq<seq<string>>, j: nat)
    requires |columns| == |categories| > 0
    requires 1 <= j < |categories[0]|
    ensures j - 1 < |EncodedNames(columns, categories)|
    ensures EncodedNames(columns, categories)[j - 1] == EncodedName(columns[0], categories[0][j])
  {
    var head := EncodedColumn(columns[0], categories[0]);
    assert EncodedNames(columns, categories) == head + EncodedNames(columns[1..], categories[1..]);
  }

  /** The later columns' names follow the first column's. */
  lemma EncodedNameLater(columns: seq<string>, categories: seq<seq<string>>, k: nat)
    requires |columns| == |categories| > 0
    requires k < |EncodedNames(columns[1..], categories[1..])|
    ensures Kept(categories[0]) + k < |EncodedNames(columns, categories)|
    ensures EncodedNames(columns, categories)[Kept(categories[0]) + k] == EncodedNames(columns[1..], categories[1..])[k]
  {
    var head := EncodedColumn(columns[0], categories[0]);
    var tail := EncodedNames(columns[1..], categories[1..]);
    assert EncodedNames(columns, categories) == head + tail;
    ConcatIndex(head, tail, k);
  }

  /** Position `k` of the second part sits `|a|` further on in `a + b`. */
  lemma ConcatIndex<T>(a: seq<T>, b: seq<T>, k: nat)
    requires k < |b|
    ensures |a| + k < |a + b| && (a + b)[|a| + k] == b[k]
  {
  }

  /** The final feature list: with categorical columns, the numeric names
      followed by the encoded names (the numeric part may be empty); without
      them, the remaining columns as they are. */
  function FeatureNames(columns: seq<string>, numeric: seq<string>, categorical: seq<string>,
                        categories: seq<seq<string>>): (r: seq<string>)
    requires |categorical| == |categories|
    ensures |categorical| > 0 ==> |r| == |numeric| + EncodedCount(categories)
    ensures |categorical| > 0 ==> r[..|numeric|] == numeric
    ensures |categorical| > 0 ==> r[|numeric|..] == EncodedNames(categorical, categories)
    ensures |categorical| == 0 ==> r == columns
  {
    if |categorical| > 0 then
      var encoded := EncodedNames(categorical, categories);
      if |numeric| > 0 then numeric + encoded else encoded
    else columns
  }

  /** With categorical columns, the `j`-th category (j >= 1) of the `i`-th
      one is named "{column}_{value}" and sits after every numeric name and
      after the encoded names of the columns before it. */
  lemma EncodedFeatureAt(columns: seq<string>, numeric: seq<string>, categorical: seq<string>,
                         categories: seq<seq<string>>, i: nat, j: nat)
    requires |categorical| == |categories|
    requires i < |categorical| && 1 <= j < |categories[i]|
    ensures |numeric| + Offset(categories, i) + j - 1 < |FeatureNames(columns, numeric, categorical, categories)|
    ensures FeatureNames(columns, numeric, categorical, categories)[|numeric| + Offset(categories, i) + j - 1]
      == EncodedName(categorical[i], categories[i][j])
  {
    EncodedNameAt(categorical, categories, i, j);
    var r := FeatureNames(columns, numeric, categorical, categories);
    var k := Offset(categories, i) + j - 1;
    assert r[|numeric|..][k] == r[|numeric| + k];
  }

  // ---------------------------------------------------------------------
  // Cluster summary
  // ---------------------------------------------------------------------

  datatype Direction = Higher | Lower

  /** The percentage by which a cluster mean differs from the overall mean,
      as float64 arithmetic computes it (a zero overall mean gives an
      infinity or NaN). */
  function RelativeDifference(clusterMean: real, overallMean: real): Ext
  {
    ScaleBy(Quotient(clusterMean - overallMean, overallMean), 100.0)
  }

  /** A feature is reported only when it differs from the average by more
      than 10%, as "higher" when the difference is positive and "lower"
      otherwise. */
  function ReportFeature(clusterMean: real, overallMean: real): Option<Direction>
  {
    var d := RelativeDifference(clusterMean, overallMean);
    if Exceeds(AbsExt(d), 10.0) then Some(if Exceeds(d, 0.0) then Higher else Lower) else None
  }

  function Abs(x: real): real { if x < 0.0 then -x else x }

  /** The reporting rule in terms of the two means: a nonzero average is
      beaten by more than a tenth of its size; a zero average is reported
      against any nonzero mean (an infinite difference) and never against a
      zero one (NaN).  "Higher" means above 1.1 times a positive average,
      below 1.1 times a negative one, or positive against a zero one. */
  lemma {:induction false} ReportRule(clusterMean: real, overallMean: real)
    ensures ReportFeature(clusterMean, overallMean).Some? <==>
      (overallMean != 0.0 && 10.0 * Abs(clusterMean - overallMean) > Abs(overallMean)) ||
      (overallMean == 0.0 && clusterMean != 0.0)
    ensures ReportFeature(clusterMean, overallMean) == Some(Higher) <==>
      (overallMean > 0.0 && clusterMean > 1.1 * overallMean) ||
      (overallMean < 0.0 && clusterMean < 1.1 * overallMean) ||
      (overallMean == 0.0 && clusterMean > 0.0)
  {
    var n := clusterMean - overallMean;
    if overallMean != 0.0 {
      var q := n / overallMean;
      assert q * overallMean == n;
      assert RelativeDifference(clusterMean, overallMean) == Fin(q * 100.0);
      MulSign(q - 0.1, overallMean, n - 0.1 * overallMean);
      MulSign(q + 0.1, overallMean, n + 0.1 * overallMean);
      assert ReportFeature(clusterMean, overallMean).Some? <==> q > 0.1 || q < -0.1;
      assert ReportFeature(clusterMean, overallMean) == Some(Higher) <==> q > 0.1;
      if overallMean > 0.0 {
        assert q > 0.1 <==> clusterMean > 1.1 * overallMean;
        assert q < -0.1 <==> n < -0.1 * overallMean;
      } else {
        assert q > 0.1 <==> clusterMean < 1.1 * overallMean;
        assert q < -0.1 <==> n > -0.1 * overallMean;
      }
    }
  }

  /** The sign of a product `p == a * d` with a nonzero factor `d`. */
  lemma MulSign(a: real, d: real, p: real)
    requires d != 0.0 && p == a * d
    ensures d > 0.0 ==> (a > 0.0 <==> p > 0.0) && (a < 0.0 <==> p < 0.0)
    ensures d < 0.0 ==> (a > 0.0 <==> p < 0.0) && (a < 0.0 <==> p > 0.0)
  {
  }

  /** The yield lines of the summary carry no threshold: the direction is
      "higher" exactly when the mean yield's difference from the average is
      positive as a float64 quotient. */
  function YieldDirection(clusterMean: real, overallMean: real): (r: Direction)
    ensures r == Higher <==>
      (overallMean >= 0.0 && clusterMean > overallMean) || (overallMean < 0.0 && clusterMean < overallMean)
  {
    QuotientPositive(clusterMean - overallMean, overallMean);
    AbsScaleNonNegative(Quotient(clusterMean - overallMean, overallMean), 100.0);
    if Exceeds(RelativeDifference(clusterMean, overallMean), 0.0) then Higher else Lower
  }

  // ---------------------------------------------------------------------
  // Model comparison
  // ---------------------------------------------------------------------

  /** One regressor's test metrics. */
  datatype ModelScores = ModelScores(name: string, r2: real, rmse: real)

  /** The best regressor by each criterion, with its score. */
  datatype Best = Best(byR2: string, bestR2: real, byRmse: string, bestRmse: real)

  datatype CompareError = NoModels

  /** Position `i` holds the first highest R². */
  predicate HighestR2At(models: seq<ModelScores>, i: int)
  {
    0 <= i < |models| &&
    (forall j :: 0 <= j < |models| ==> models[j].r2 <= models[i].r2) &&
    (forall j :: 0 <= j < i ==> models[j].r2 < models[i].r2)
  }

  /** Position `i` holds the first lowest RMSE. */
  predicate LowestRmseAt(models: seq<ModelScores>, i: int)
  {
    0 <= i < |models| &&
    (forall j :: 0 <= j < |models| ==> models[i].rmse <= models[j].rmse) &&
    (forall j :: 0 <= j < i ==> models[i].rmse < models[j].rmse)
  }

  /** `compare_models`: the model with the highest R² and the one with the
      lowest RMSE, the first in list order on ties; with no models the table
      has no 'Model' column to index by (KeyError). */
  method CompareModels(models: seq<ModelScores>) returns (r: Result<Best, CompareError>)
    ensures r.Err? <==> |models| == 0
    ensures r.Ok? ==> exists i :: HighestR2At(models, i) && models[i].name == r.value.byR2 && models[i].r2 == r.value.bestR2
    ensures r.Ok? ==> exists i :: LowestRmseAt(models, i) && models[i].name == r.value.byRmse && models[i].rmse == r.value.bestRmse
  {
    if |models| == 0 {
      return Err(NoModels);
    }
    var r2s := seq(|models|, i requires 0 <= i < |models| => models[i].r2);
    var rmses := seq(|models|, i requires 0 <= i < |models| => models[i].rmse);
    assert forall j :: 0 <= j < |models| ==> r2s[j] == models[j].r2 && rmses[j] == models[j].rmse;
    var a := FirstArgMax(r2s);
    var b := FirstArgMin(rmses);
    assert HighestR2At(models, a);
    assert LowestRmseAt(models, b);
    r := Ok(Best(models[a].name, models[a].r2, models[b].name, models[b].rmse));
  }
}

=== FILE: grouping.dfy ===
/** pandas `groupby(key).size()` over integer bucket keys: the distinct keys
    in ascending order, each with the number of rows that carry it. */
module Grouping {
  import opened Basics

  predicate Increasing(s: seq<int>)
  {
    forall i, j :: 0 <= i < j < |s| ==> s[i] < s[j]
  }

  /** Adds a key to an ascending key list unless it is already there. */
  function InsertKey(s: seq<int>, k: int): (r: seq<int>)
    requires Increasing(s)
    ensures Increasing(r)
    ensures forall x :: x in r <==> x in s || x == k
    ensures k in s ==> r == s
  {
    if |s| == 0 || k < s[0] then [k] + s
    else if k == s[0] then s
    else
      var t := InsertKey(s[1..], k);
      assert forall j :: 0 <= j < |t| ==> s[0] < t[j] by {
        forall j | 0 <= j < |t|
          ensures s[0] < t[j]
        {
          assert t[j] in t;
          if t[j] != k {
            var m :| 0 <= m < |s| - 1 && s[1..][m] == t[j];
            assert s[m + 1] == t[j];
          }
        }
      }
      [s[0]] + t
  }

  /** The distinct keys of `ks`, ascending: the index of a grouped frame. */
  function DistinctKeys(ks: seq<int>): (r: seq<int>)
    ensures Increasing(r)
    ensures forall x :: x in r <==> x in ks
  {
    if |ks| == 0 then []
    else
      assert ks == ks[..|ks| - 1] + [ks[|ks| - 1]];
      InsertKey(DistinctKeys(ks[..|ks| - 1]), ks[|ks| - 1])
  }

  /** How many entries of `ks` equal `k`. */
  function Occurrences(ks: seq<int>, k: int): nat
  {
    |Filter(ks, x => x == k)|
  }

  lemma OccurrencesAppend(ks: seq<int>, x: int, k: int)
    ensures Occurrences(ks + [x], k) == Occurrences(ks, k) + (if x == k then 1 else 0)
  {
    assert (ks + [x])[..|ks + [x]| - 1] == ks;
  }

  /** A key occurs at least once exactly when it is present. */
  lemma OccurrencesPositive(ks: seq<int>, k: int)
    ensures Occurrences(ks, k) > 0 <==> k in ks
  {
    var f := Filter(ks, x => x == k);
    FilterMembers(ks, x => x == k);
    if k in ks {
      assert k in f;
    }
    if |f| > 0 {
      assert f[0] in f;
    }
  }

  datatype Bucket = Bucket(key: int, count: nat)

  /** One bucket per listed key, counting its occurrences in `ks`. */
  function Tally(ds: seq<int>, ks: seq<int>): (r: seq<Bucket>)
    ensures |r| == |ds|
    ensures forall i :: 0 <= i < |ds| ==> r[i] == Bucket(ds[i], Occurrences(ks, ds[i]))
  {
    if |ds| == 0 then [] else [Bucket(ds[0], Occurrences(ks, ds[0]))] + Tally(ds[1..], ks)
  }

  function TotalCount(bs: seq<Bucket>): nat
  {
    if |bs| == 0 then 0 else bs[0].count + TotalCount(bs[1..])
  }

  lemma DistinctTallyPositive(ks: seq<int>)
    ensures forall i :: 0 <= i < |DistinctKeys(ks)| ==> Tally(DistinctKeys(ks), ks)[i].count > 0
  {
    var ds := DistinctKeys(ks);
    forall i | 0 <= i < |ds|
      ensures Tally(ds, ks)[i].count > 0
    {
      OccurrencesPositive(ks, ds[i]);
    }
  }

  lemma DistinctTallyKeys(ks: seq<int>, k: int)
    ensures k in ks <==> exists i :: 0 <= i < |DistinctKeys(ks)| && Tally(DistinctKeys(ks), ks)[i].key == k
  {
    var ds := DistinctKeys(ks);
    if k in ks {
      var i :| 0 <= i < |ds| && ds[i] == k;
      assert Tally(ds, ks)[i].key == k;
    }
  }

  /** `groupby(key).size()`: the distinct keys ascending, each with its count. */
  function CountByKey(ks: seq<int>): (r: seq<Bucket>)
    ensures forall i :: 0 <= i < |r| ==> r[i].count > 0
    ensures forall i :: 0 <= i < |r| ==> r[i].count == Occurrences(ks, r[i].key)
    ensures forall k :: k in ks <==> exists i :: 0 <= i < |r| && r[i].key == k
    ensures forall i, j :: 0 <= i < j < |r| ==> r[i].key < r[j].key
  {
    DistinctTallyPositive(ks);
    forall k
      ensures k in ks <==> exists i :: 0 <= i < |DistinctKeys(ks)| && Tally(DistinctKeys(ks), ks)[i].key == k
    {
      DistinctTallyKeys(ks, k);
    }
    Tally(DistinctKeys(ks), ks)
  }

  /** One more row adds one to the total exactly when its key is listed. */
  lemma {:induction false} TallyAppend(ds: seq<int>, ks: seq<int>, x: int)
    requires Increasing(ds)
    ensures TotalCount(Tally(ds, ks + [x])) == TotalCount(Tally(ds, ks)) + (if x in ds then 1 else 0)
  {
    if |ds| > 0 {
      TallyAppend(ds[1..], ks, x);
      OccurrencesAppend(ks, x, ds[0]);
      assert x in ds <==> x == ds[0] || x in ds[1..];
      assert x == ds[0] ==> x !in ds[1..];
    }
  }

  /** Listing one more key adds that key's occurrences to the total. */
  lemma {:induction false} TallyInsert(ds: seq<int>, ks: seq<int>, x: int)
    requires Increasing(ds)
    requires x !in ds
    ensures TotalCount(Tally(InsertKey(ds, x), ks)) == TotalCount(Tally(ds, ks)) + Occurrences(ks, x)
  {
    if |ds| == 0 || x < ds[0] {
      assert InsertKey(ds, x)[1..] == ds;
    } else {
      TallyInsert(ds[1..], ks, x);
      assert InsertKey(ds, x)[1..] == InsertKey(ds[1..], x);
    }
  }

  /** The group sizes add up to the number of rows grouped. */
  lemma {:induction false} CountByKeyTotal(ks: seq<int>)
    ensures TotalCount(CountByKey(ks)) == |ks|
  {
    if |ks| > 0 {
      var init := ks[..|ks| - 1];
      var x := ks[|ks| - 1];
      assert ks == init + [x];
      CountByKeyTotal(init);
      var d := DistinctKeys(init);
      TallyAppend(d, init, x);
      if x !in d {
        TallyInsert(d, ks, x);
        OccurrencesAppend(init, x, x);
        OccurrencesPositive(init, x);
      }
    }
  }
}

=== FILE: metrics_table.dfy ===
/** The comparison of two YOLO training runs: loading a results file (column
    names stripped of surrounding whitespace), the table of final metric
    values with the percentage change between the runs, and the names of
    the files the comparison writes.  Plotting, CSV parsing and number
    formatting are left out. */
module MetricsTable {
  import opened Basics

  /** The ASCII characters `str.strip` removes: those `str.isspace` accepts,
      which are space, tab, the line and form feeds, carriage return and the
      four separators 0x1C to 0x1F. */
  predicate IsSpace(c: char)
  {
    || c == ' ' || c == '\t' || c == '\n' || c == '\r' || c == '\U{0B}' || c == '\U{0C}'
    || c == '\U{1C}' || c == '\U{1D}' || c == '\U{1E}' || c == '\U{1F}'
  }

  /** Every character of `s[from..to]` is whitespace. */
  predicate AllSpace(s: string, from: int, to: int)
    requires 0 <= from <= to <= |s|
  {
    forall k :: from <= k < to ==> IsSpace(s[k])
  }

  /** The first position at or after `from` that is not whitespace, or the
      end of the text. */
  function LeadingEnd(s: string, from: nat): (i: nat)
    requires from <= |s|
    ensures from <= i <= |s|
    ensures AllSpace(s, from, i)
    ensures i < |s| ==> !IsSpace(s[i])
    decreases |s| - from
  {
    if from == |s| || !IsSpace(s[from]) then from else LeadingEnd(s, from + 1)
  }

  /** The position just after the last non-whitespace character of
      `s[lo..to]`, or `lo` when there is none. */
  function TrailingStart(s: string, lo: nat, to: nat): (j: nat)
    requires lo <= to <= |s|
    ensures lo <= j <= to
    ensures AllSpace(s, j, to)
    ensures j > lo ==> !IsSpace(s[j - 1])
  {
    if to == lo || !IsSpace(s[to - 1]) then to else TrailingStart(s, lo, to - 1)
  }

  /** `r` is `s[i..j]` with only whitespace before `i` and after `j`. */
  predicate StrippedAt(s: string, r: string, i: int, j: int)
  {
    0 <= i <= j <= |s| && r == s[i..j] && AllSpace(s, 0, i) && AllSpace(s, j, |s|)
  }

  /** `str.strip()`: the text between the leading and the trailing whitespace. */
  function Strip(s: string): (r: string)
    ensures exists i, j :: StrippedAt(s, r, i, j)
    ensures |r| > 0 ==> !IsSpace(r[0]) && !IsSpace(r[|r| - 1])
  {
    var i := LeadingEnd(s, 0);
    var j := TrailingStart(s, i, |s|);
    assert StrippedAt(s, s[i..j], i, j);
    s[i..j]
  }

  /** Stripping is idempotent: a stripped name strips to itself. */
  lemma StripIdempotent(s: string)
    ensures Strip(Strip(s)) == Strip(s)
  {
    var r := Strip(s);
    assert r[0..|r|] == r;
  }

  /** A header cell with a leading file separator and a trailing space loads
      under its bare name. */
  lemma StripSeparatorExample()
    ensures Strip("\U{1C}epoch ") == "epoch"
  {
    var s := "\U{1C}epoch ";
    assert LeadingEnd(s, 1) == 1;
    assert LeadingEnd(s, 0) == 1;
    assert TrailingStart(s, 1, 6) == 6;
    assert TrailingStart(s, 1, 7) == 6;
    assert s[1..6] == "epoch";
  }

  /** A results frame: named columns of numbers, in file order. */
  datatype Column = Column(name: string, values: seq<real>)

  function StripNames(cols: seq<Column>): (r: seq<Column>)
    ensures |r| == |cols|
    ensures forall i :: 0 <= i < |cols| ==> r[i] == Column(Strip(cols[i].name), cols[i].values)
  {
    if |cols| == 0 then [] else [Column(Strip(cols[0].name), cols[0].values)] + StripNames(cols[1..])
  }

  /** `load_results_csv`: the parsed frame with its column names stripped, or
      nothing when reading failed. */
  function LoadResults(parsed: Option<seq<Column>>): (r: Option<seq<Column>>)
    ensures r.Some? <==> parsed.Some?
    ensures r.Some? ==> |r.value| == |parsed.value|
    ensures r.Some? ==> forall i :: 0 <= i < |r.value| ==>
      r.value[i].values == parsed.value[i].values && Strip(r.value[i].name) == r.value[i].name
    ensures r.Some? ==> forall i :: 0 <= i < |r.value| ==> r.value[i].name == Strip(parsed.value[i].name)
  {
    match parsed
    case None => None
    case Some(cols) =>
      var r := StripNames(cols);
      forall i | 0 <= i < |r|
        ensures Strip(r[i].name) == r[i].name
      {
        StripIdempotent(cols[i].name);
      }
      Some(r)
  }

  predicate HasColumn(cols: seq<Column>, name: string)
  {
    exists i :: 0 <= i < |cols| && cols[i].name == name
  }

  /** The values of the first column with the given name. */
  function ColumnValues(cols: seq<Column>, name: string): (vs: seq<real>)
    requires HasColumn(cols, name)
    ensures exists i :: 0 <= i < |cols| && cols[i].name == name && cols[i].values == vs
  {
    if cols[0].name == name then cols[0].values
    else
      var i :| 0 <= i < |cols| && cols[i].name == name;
      assert cols[1..][i - 1] == cols[i];
      ColumnValues(cols[1..], name)
  }

  /** The compared metrics, in dictionary order, with their display titles. */
  const Metrics: seq<(string, string)> := [
    ("metrics/mAP_0.5", "mAP@0.5"),
    ("metrics/mAP_0.5:0.95", "mAP@0.5:0.95"),
    ("metrics/precision", "Precisão"),
    ("metrics/recall", "Recall"),
    ("train/box_loss", "Perda Box"),
    ("train/obj_loss", "Perda Objeto"),
    ("train/cls_loss", "Perda Classificação")
  ]

  /** `sub` occurs in `s` starting at position `i`. */
  predicate MatchesAt(s: string, sub: string, i: int)
  {
    0 <= i <= |s| - |sub| && s[i..i + |sub|] == sub
  }

  /** Python's `sub in s` on strings. */
  ghost predicate Contains(s: string, sub: string)
  {
    exists i :: MatchesAt(s, sub, i)
  }

  function ContainsAt(s: string, sub: string, from: nat): (b: bool)
    ensures b <==> exists i :: from <= i && MatchesAt(s, sub, i)
    decreases |s| - from
  {
    if from + |sub| > |s| then false
    else if s[from..from + |sub|] == sub then assert MatchesAt(s, sub, from); true
    else ContainsAt(s, sub, from + 1)
  }

  /** Substring search, decidable. */
  function Search(s: string, sub: string): (b: bool)
    ensures b <==> Contains(s, sub)
  {
    ContainsAt(s, sub, 0)
  }

  /** Loss metrics are the ones whose key contains "loss". */
  predicate IsLoss(metric: string)
  {
    Search(metric, "loss")
  }

  /** The three training losses, and only they, are loss metrics. */
  lemma LossMetrics()
    ensures forall i :: 0 <= i < |Metrics| ==> (IsLoss(Metrics[i].0) <==> i >= 4)
  {
    assert MatchesAt("train/box_loss", "loss", 10);
    assert MatchesAt("train/obj_loss", "loss", 10);
    assert MatchesAt("train/cls_loss", "loss", 10);
    forall i | 0 <= i < 4
      ensures !IsLoss(Metrics[i].0)
    {
      var m := Metrics[i].0;
      forall k | 0 <= k <= |m| - 4
        ensures !MatchesAt(m, "loss", k)
      {
        assert m[k..k + 4][0] == m[k];
        assert m[k..k + 4][1] == m[k + 1];
      }
    }
  }

  /** The values are printed with three decimals for mAP, precision and
      recall, and four for the rest. */
  function Decimals(metric: string): (d: nat)
    ensures d == 3 || d == 4
    ensures d == 3 <==> Contains(metric, "mAP") || Contains(metric, "precision") || Contains(metric, "recall")
  {
    if Search(metric, "mAP") || Search(metric, "precision") || Search(metric, "recall") then 3 else 4
  }

  datatype Direction = Increase | Decrease

  /** The change reported for one metric: the percentage (an absolute value)
      and whether it is a reduction or an increase.  For a loss the change is
      measured as m1 - m2, for the others as m2 - m1, both relative to m1. */
  function Change(metric: string, m1: real, m2: real): (r: (Ext, Direction))
  {
    if IsLoss(metric) then
      var pct := ScaleBy(Quotient(m1 - m2, m1), 100.0);
      (AbsExt(pct), if Exceeds(pct, 0.0) then Decrease else Increase)
    else
      var pct := ScaleBy(Quotient(m2 - m1, m1), 100.0);
      (AbsExt(pct), if Exceeds(pct, 0.0) then Increase else Decrease)
  }

  /** The direction rules: a loss is reported as reduced exactly when the
      second run's final value moved below the first's in the sense of the
      signed ratio (m1 - m2) / m1 being positive; any other metric is reported
      as increased exactly when (m2 - m1) / m1 is positive.  The percentage is
      never a negative number, and it is NaN only for 0/0. */
  lemma ChangeRules(metric: string, m1: real, m2: real)
    ensures IsLoss(metric) ==>
      (Change(metric, m1, m2).1 == Decrease <==> (m1 >= 0.0 && m1 - m2 > 0.0) || (m1 < 0.0 && m1 - m2 < 0.0))
    ensures !IsLoss(metric) ==>
      (Change(metric, m1, m2).1 == Increase <==> (m1 >= 0.0 && m2 - m1 > 0.0) || (m1 < 0.0 && m2 - m1 < 0.0))
    ensures Change(metric, m1, m2).0.Fin? ==> Change(metric, m1, m2).0.value >= 0.0
    ensures Change(metric, m1, m2).0.NaN? <==> m1 == 0.0 && m2 == 0.0
    ensures Change(metric, m1, m2).0.NegInf? == false
  {
    if IsLoss(metric) {
      QuotientPositive(m1 - m2, m1);
      AbsScaleNonNegative(Quotient(m1 - m2, m1), 100.0);
    } else {
      QuotientPositive(m2 - m1, m1);
      AbsScaleNonNegative(Quotient(m2 - m1, m1), 100.0);
    }
  }

  /** Equal final values on a nonzero first run give a 0% change, reported as
      an increase for a loss and as a reduction for the other metrics. */
  lemma EqualFinals(metric: string, m: real)
    requires m != 0.0
    ensures Change(metric, m, m).0 == Fin(0.0)
    ensures Change(metric, m, m).1 == (if IsLoss(metric) then Increase else Decrease)
  {
  }

  /** One row of the comparison table. */
  datatype Row = Row(title: string, model1: real, model2: real, decimals: nat, change: Ext, direction: Direction)

  datatype TableError = EmptyColumn(metric: string)

  predicate InBoth(a: seq<Column>, b: seq<Column>, metric: string)
  {
    HasColumn(a, metric) && HasColumn(b, metric)
  }

  /** The test of the comparison loop: the metric is a column of both runs. */
  function InBothMask(a: seq<Column>, b: seq<Column>): ((string, string)) -> bool
  {
    (m: (string, string)) => InBoth(a, b, m.0)
  }

  /** The metrics both runs report, in dictionary order: the list with the
      others filtered out. */
  function Shared(a: seq<Column>, b: seq<Column>, ms: seq<(string, string)>): (r: seq<(string, string)>)
    ensures |r| <= |ms|
    ensures forall i :: 0 <= i < |r| ==> r[i] in ms && InBoth(a, b, r[i].0)
    ensures forall i :: 0 <= i < |ms| && InBoth(a, b, ms[i].0) ==> ms[i] in r
    ensures r == Filter(ms, InBothMask(a, b))
  {
    if |ms| == 0 then []
    else
      assert ms == [ms[0]] + ms[1..];
      FilterAppend([ms[0]], ms[1..], InBothMask(a, b));
      assert Filter([ms[0]], InBothMask(a, b)) == (if InBoth(a, b, ms[0].0) then [ms[0]] else []) by {
        assert [ms[0]][..0] == [];
      }
      if InBoth(a, b, ms[0].0) then [ms[0]] + Shared(a, b, ms[1..])
      else Shared(a, b, ms[1..])
  }

  function RowOf(a: seq<Column>, b: seq<Column>, metric: (string, string)): (r: Result<Row, TableError>)
    requires InBoth(a, b, metric.0)
    ensures r.Err? <==> |ColumnValues(a, metric.0)| == 0 || |ColumnValues(b, metric.0)| == 0
    ensures r.Ok? ==>
      var xs := ColumnValues(a, metric.0);
      var ys := ColumnValues(b, metric.0);
      && r.value.title == metric.1
      && r.value.model1 == xs[|xs| - 1]
      && r.value.model2 == ys[|ys| - 1]
      && r.value.decimals == Decimals(metric.0)
      && (r.value.change, r.value.direction) == Change(metric.0, xs[|xs| - 1], ys[|ys| - 1])
  {
    var xs := ColumnValues(a, metric.0);
    var ys := ColumnValues(b, metric.0);
    if |xs| == 0 || |ys| == 0 then Err(EmptyColumn(metric.0))
    else
      var m1 := xs[|xs| - 1];
      var m2 := ys[|ys| - 1];
      var c := Change(metric.0, m1, m2);
      Ok(Row(metric.1, m1, m2, Decimals(metric.0), c.0, c.1))
  }

  /** Some listed metric has an empty column in one of the runs. */
  predicate SomeRowFails(a: seq<Column>, b: seq<Column>, ms: seq<(string, string)>)
    requires forall i :: 0 <= i < |ms| ==> InBoth(a, b, ms[i].0)
  {
    exists i :: 0 <= i < |ms| && RowOf(a, b, ms[i]).Err?
  }

  function RowsOf(a: seq<Column>, b: seq<Column>, ms: seq<(string, string)>): (r: Result<seq<Row>, TableError>)
    requires forall i :: 0 <= i < |ms| ==> InBoth(a, b, ms[i].0)
    ensures r.Err? <==> SomeRowFails(a, b, ms)
    ensures r.Ok? ==> |r.value| == |ms| && forall i :: 0 <= i < |ms| ==> r.value[i] == RowOf(a, b, ms[i]).value
  {
    if |ms| == 0 then Ok([])
    else
      match RowOf(a, b, ms[0])
      case Err(e) => Err(e)
      case Ok(row) =>
        var tail := ms[1..];
        assert forall i :: 1 <= i < |ms| ==> ms[i] == tail[i - 1];
        match RowsOf(a, b, tail)
        case Err(e) =>
          var j :| 0 <= j < |tail| && RowOf(a, b, tail[j]).Err?;
          assert RowOf(a, b, ms[j + 1]).Err?;
          Err(e)
        case Ok(rest) =>
          Ok([row] + rest)
  }

  /** `create_metrics_table`: one row per metric both runs report, in the
      fixed order, comparing the last value of each run's column; an empty
      column fails (`iloc[-1]` raises). */
  function MetricsComparison(a: seq<Column>, b: seq<Column>): (r: Result<seq<Row>, TableError>)
    ensures r.Ok? ==> |r.value| == |Shared(a, b, Metrics)| <= |Metrics| == 7
    ensures r.Err? <==> SomeRowFails(a, b, Shared(a, b, Metrics))
    ensures r.Ok? ==> forall i :: 0 <= i < |r.value| ==> r.value[i] == RowOf(a, b, Shared(a, b, Metrics)[i]).value
    ensures r.Ok? ==> forall i :: 0 <= i < |r.value| ==> r.value[i].title == Filter(Metrics, InBothMask(a, b))[i].1
  {
    RowsOf(a, b, Shared(a, b, Metrics))
  }

  /** Replaces every occurrence of one character by another. */
  function ReplaceChar(s: string, from: char, to: char): (r: string)
    ensures |r| == |s|
    ensures forall i :: 0 <= i < |s| ==> r[i] == (if s[i] == from then to else s[i])
  {
    if |s| == 0 then [] else [if s[0] == from then to else s[0]] + ReplaceChar(s[1..], from, to)
  }

  /** The file a metric's comparison plot is saved to (within the output
      directory): its key with "/" turned into "_". */
  function PlotFileName(metric: string): (name: string)
    ensures '/' !in name
    ensures |name| == |metric| + |"_comparison.png"|
    ensures forall i :: 0 <= i < |metric| ==> name[i] == (if metric[i] == '/' then '_' else metric[i])
    ensures name[|metric|..] == "_comparison.png"
  {
    var base := ReplaceChar(metric, '/', '_');
    assert forall i :: 0 <= i < |base| ==> base[i] != '/';
    base + "_comparison.png"
  }

  /** The file a model's confusion matrix is copied to: its name with spaces
      turned into "_". */
  function ConfusionFileName(model: string): (name: string)
    ensures ' ' !in name
    ensures |name| == |model| + 20 && name[..16] == "matriz_confusao_"
    ensures forall i :: 0 <= i < |model| ==> name[16 + i] == (if model[i] == ' ' then '_' else model[i])
    ensures name[|name| - 4..] == ".png"
  {
    var base := ReplaceChar(model, ' ', '_');
    assert forall i :: 0 <= i < |base| ==> base[i] != ' ';
    "matriz_confusao_" + base + ".png"
  }
}

=== FILE: sensor_report.dfy ===
/** The aggregations both sensor dashboards compute from the fetched rows:
    monthly means, monthly irrigation-activation counts, per-day counts of
    readings with and without irrigation, and the ideal-range counts for
    humidity and pH.  Charts and widgets are left out; what they display is
    modelled here. */
module SensorReport {
  import opened Basics
  import Calendar
  import Grouping

  /** One fetched reading with numeric columns. */
  datatype Reading = Reading(humidity: real, temperature: real, ph: real,
                             nutrientP: real, nutrientK: real, irrigation: real,
                             at: Calendar.Timestamp)

  function MonthOf(r: Reading): int { Calendar.MonthKey(r.at) }
  function DayOf(r: Reading): int { Calendar.DayKey(r.at) }

  function Humidity(r: Reading): real { r.humidity }
  function Temperature(r: Reading): real { r.temperature }
  function Ph(r: Reading): real { r.ph }
  function NutrientP(r: Reading): real { r.nutrientP }
  function NutrientK(r: Reading): real { r.nutrientK }
  function Irrigation(r: Reading): real { r.irrigation }

  /** One column of the frame: the value of `f`, or the bucket key, of every
      reading in row order. */
  function Column<T>(rs: seq<Reading>, f: Reading -> T): (c: seq<T>)
    ensures |c| == |rs|
    ensures forall i :: 0 <= i < |rs| ==> c[i] == f(rs[i])
  {
    if |rs| == 0 then [] else Column(rs[..|rs| - 1], f) + [f(rs[|rs| - 1])]
  }

  /** The readings that satisfy `p` and fall in bucket `k`. */
  function Within(p: Reading -> bool, key: Reading -> int, k: int): Reading -> bool
  {
    r => p(r) && key(r) == k
  }

  /** A bucket appears among the keys of a selection exactly when a selected
      reading falls in it. */
  lemma KeyOfSelection(rs: seq<Reading>, p: Reading -> bool, key: Reading -> int, k: int)
    ensures k in Column(Filter(rs, p), key) <==> exists j :: 0 <= j < |rs| && p(rs[j]) && key(rs[j]) == k
  {
    var f := Filter(rs, p);
    FilterMembers(rs, p);
    if k in Column(f, key) {
      var i :| 0 <= i < |f| && Column(f, key)[i] == k;
      assert f[i] in f;
    }
    if exists j :: 0 <= j < |rs| && p(rs[j]) && key(rs[j]) == k {
      var j :| 0 <= j < |rs| && p(rs[j]) && key(rs[j]) == k;
      assert rs[j] in f;
      var i :| 0 <= i < |f| && f[i] == rs[j];
      assert Column(f, key)[i] == k;
    }
  }

  /** Counting a bucket among the selected readings' keys is selecting the
      readings of that bucket. */
  lemma {:induction false} OccurrencesOfSelection(rs: seq<Reading>, p: Reading -> bool, key: Reading -> int, k: int)
    ensures Grouping.Occurrences(Column(Filter(rs, p), key), k) == |Filter(rs, Within(p, key, k))|
  {
    if |rs| > 0 {
      var init := rs[..|rs| - 1];
      var x := rs[|rs| - 1];
      assert rs == init + [x];
      OccurrencesOfSelection(init, p, key, k);
      FilterSnoc(init, x, p);
      FilterSnoc(init, x, Within(p, key, k));
      if p(x) {
        var f := Filter(init, p);
        assert Column(f + [x], key) == Column(f, key) + [key(x)];
        Grouping.OccurrencesAppend(Column(f, key), key(x), k);
      }
    }
  }

  /** The readings of one month, in row order. */
  function Group(rs: seq<Reading>, m: int): seq<Reading>
  {
    Filter(rs, Within(Everything, MonthOf, m))
  }

  predicate Everything(r: Reading) { true }

  /** A month that some reading falls in has a non-empty group, all of whose
      readings are readings of that month. */
  lemma GroupOfPresentMonth(rs: seq<Reading>, m: int)
    requires m in Column(rs, MonthOf)
    ensures |Group(rs, m)| > 0
    ensures forall r :: r in Group(rs, m) ==> r in rs && MonthOf(r) == m
  {
    FilterMembers(rs, Within(Everything, MonthOf, m));
    var i :| 0 <= i < |rs| && Column(rs, MonthOf)[i] == m;
    assert rs[i] in Group(rs, m);
  }

  /** One row of `groupby("month").mean()`. */
  datatype MonthRow = MonthRow(month: int, humidity: real, temperature: real, ph: real,
                               nutrientP: real, nutrientK: real, irrigation: real)

  function MeanRow(rs: seq<Reading>, m: int): MonthRow
    requires |Group(rs, m)| > 0
  {
    var g := Group(rs, m);
    MonthRow(m, Mean(Column(g, Humidity)), Mean(Column(g, Temperature)), Mean(Column(g, Ph)),
             Mean(Column(g, NutrientP)), Mean(Column(g, NutrientK)), Mean(Column(g, Irrigation)))
  }

  function MeanRows(rs: seq<Reading>, ms: seq<int>): (r: seq<MonthRow>)
    requires forall i :: 0 <= i < |ms| ==> |Group(rs, ms[i])| > 0
    ensures |r| == |ms|
    ensures forall i :: 0 <= i < |ms| ==> r[i].month == ms[i]
  {
    if |ms| == 0 then []
    else [MeanRow(rs, ms[0])] + MeanRows(rs, ms[1..])
  }

  lemma {:induction false} MeanRowsAt(rs: seq<Reading>, ms: seq<int>, i: int)
    requires forall j :: 0 <= j < |ms| ==> |Group(rs, ms[j])| > 0
    requires 0 <= i < |ms|
    ensures MeanRows(rs, ms)[i] == MeanRow(rs, ms[i])
  {
    if i > 0 {
      MeanRowsAt(rs, ms[1..], i - 1);
    }
  }

  /** `data.groupby("month").mean()`: one row per distinct month, ascending;
      every month it lists has readings. */
  function MonthlyMeans(rs: seq<Reading>): (r: seq<MonthRow>)
    ensures |r| == |Grouping.DistinctKeys(Column(rs, MonthOf))|
    ensures forall i :: 0 <= i < |r| ==> r[i].month == Grouping.DistinctKeys(Column(rs, MonthOf))[i]
    ensures forall i, j :: 0 <= i < j < |r| ==> r[i].month < r[j].month
    ensures forall i :: 0 <= i < |r| ==> |Group(rs, r[i].month)| > 0
  {
    var ds := Grouping.DistinctKeys(Column(rs, MonthOf));
    forall i | 0 <= i < |ds|
      ensures |Group(rs, ds[i])| > 0
    {
      GroupOfPresentMonth(rs, ds[i]);
    }
    MeanRows(rs, ds)
  }

  /** Each row holds the mean of every numeric column over the readings of
      its month. */
  lemma MonthlyMeanRow(rs: seq<Reading>, i: int)
    requires 0 <= i < |MonthlyMeans(rs)|
    ensures |Group(rs, MonthlyMeans(rs)[i].month)| > 0
    ensures MonthlyMeans(rs)[i] == MeanRow(rs, MonthlyMeans(rs)[i].month)
  {
    var ds := Grouping.DistinctKeys(Column(rs, MonthOf));
    assert forall j :: 0 <= j < |ds| ==> |Group(rs, ds[j])| > 0 by {
      forall j | 0 <= j < |ds|
        ensures |Group(rs, ds[j])| > 0
      {
        GroupOfPresentMonth(rs, ds[j]);
      }
    }
    MeanRowsAt(rs, ds, i);
  }

  lemma MonthColumnMembers(rs: seq<Reading>, m: int)
    ensures m in Column(rs, MonthOf) <==> exists k :: 0 <= k < |rs| && MonthOf(rs[k]) == m
  {
    var ks := Column(rs, MonthOf);
    if m in ks {
      var k :| 0 <= k < |ks| && ks[k] == m;
      assert MonthOf(rs[k]) == m;
    }
  }

  /** A month has a row exactly when some reading falls in it. */
  lemma OneRowPerMonth(rs: seq<Reading>, m: int)
    ensures (exists i :: 0 <= i < |MonthlyMeans(rs)| && MonthlyMeans(rs)[i].month == m)
        <==> exists k :: 0 <= k < |rs| && MonthOf(rs[k]) == m
  {
    var ds := Grouping.DistinctKeys(Column(rs, MonthOf));
    MonthColumnMembers(rs, m);
    if m in ds {
      var i :| 0 <= i < |ds| && ds[i] == m;
      assert MonthlyMeans(rs)[i].month == m;
    }
  }

  /** Every monthly mean lies between that month's smallest and largest value. */
  lemma MonthlyMeanWithinMonth(rs: seq<Reading>, i: int)
    requires 0 <= i < |MonthlyMeans(rs)|
    ensures
      var row := MonthlyMeans(rs)[i];
      var g := Group(rs, row.month);
      && MinOf(Column(g, Humidity)) <= row.humidity <= MaxOf(Column(g, Humidity))
      && MinOf(Column(g, Temperature)) <= row.temperature <= MaxOf(Column(g, Temperature))
      && MinOf(Column(g, Ph)) <= row.ph <= MaxOf(Column(g, Ph))
      && MinOf(Column(g, NutrientP)) <= row.nutrientP <= MaxOf(Column(g, NutrientP))
      && MinOf(Column(g, NutrientK)) <= row.nutrientK <= MaxOf(Column(g, NutrientK))
      && MinOf(Column(g, Irrigation)) <= row.irrigation <= MaxOf(Column(g, Irrigation))
  {
    MonthlyMeanRow(rs, i);
    var g := Group(rs, MonthlyMeans(rs)[i].month);
    MeanBetweenMinAndMax(Column(g, Humidity));
    MeanBetweenMinAndMax(Column(g, Temperature));
    MeanBetweenMinAndMax(Column(g, Ph));
    MeanBetweenMinAndMax(Column(g, NutrientP));
    MeanBetweenMinAndMax(Column(g, NutrientK));
    MeanBetweenMinAndMax(Column(g, Irrigation));
  }

  /** With 0/1 statuses the monthly mean irrigation status is a rate in [0, 1]. */
  lemma MonthlyIrrigationRate(rs: seq<Reading>, i: int)
    requires 0 <= i < |MonthlyMeans(rs)|
    requires forall k :: 0 <= k < |rs| ==> rs[k].irrigation == 0.0 || rs[k].irrigation == 1.0
    ensures 0.0 <= MonthlyMeans(rs)[i].irrigation <= 1.0
  {
    MonthlyMeanRow(rs, i);
    var m := MonthlyMeans(rs)[i].month;
    var g := Group(rs, m);
    FilterMembers(rs, Within(Everything, MonthOf, m));
    var c := Column(g, Irrigation);
    forall j | 0 <= j < |c|
      ensures 0.0 <= c[j] <= 1.0
    {
      assert g[j] in g;
      var k :| 0 <= k < |rs| && rs[k] == g[j];
    }
    MeanBounds(c, 0.0, 1.0);
  }

  /** Two readings of January 2024 form one month group holding both. */
  lemma JanuaryGroup(a: Reading, b: Reading)
    requires a.at.year == 2024 && a.at.month == 1
    requires b.at.year == 2024 && b.at.month == 1
    ensures Grouping.DistinctKeys(Column([a, b], MonthOf)) == [202401]
    ensures Group([a, b], 202401) == [a, b]
  {
    var ks := Column([a, b], MonthOf);
    assert ks == [202401, 202401];
    assert ks[..1] == [202401] && [202401][..0] == [];
    assert Grouping.DistinctKeys([202401]) == [202401];
    var p := Within(Everything, MonthOf, 202401);
    FilterSnoc([], a, p);
    FilterSnoc([a], b, p);
    assert [a] + [b] == [a, b];
  }

  /** With a single month present there is a single row, that month's means. */
  lemma SingleMonth(rs: seq<Reading>, m: int)
    requires Grouping.DistinctKeys(Column(rs, MonthOf)) == [m]
    ensures |Group(rs, m)| > 0
    ensures MonthlyMeans(rs) == [MeanRow(rs, m)]
  {
    MonthlyMeanRow(rs, 0);
    assert MonthlyMeans(rs)[0].month == m;
  }

  /** Two January readings with humidity 40 and 60 average to 50. */
  lemma MonthlyMeanExample(a: Reading, b: Reading)
    requires a.at.year == 2024 && a.at.month == 1 && a.humidity == 40.0
    requires b.at.year == 2024 && b.at.month == 1 && b.humidity == 60.0
    ensures |MonthlyMeans([a, b])| == 1
    ensures MonthlyMeans([a, b])[0].month == 202401 && MonthlyMeans([a, b])[0].humidity == 50.0
  {
    JanuaryGroup(a, b);
    SingleMonth([a, b], 202401);
    var c := Column([a, b], Humidity);
    assert c == [40.0, 60.0];
    assert c[..1] == [40.0] && [40.0][..0] == [];
    assert Sum(c) == 100.0;
  }

  /** Readings whose irrigation status is exactly 1, exactly 0, or either. */
  predicate Active(r: Reading) { r.irrigation == 1.0 }
  predicate Idle(r: Reading) { r.irrigation == 0.0 }
  predicate Recorded(r: Reading) { Active(r) || Idle(r) }

  /** `data[data[status] == 1].groupby("month").size()`: months with at least
      one activation, ascending, each with its number of activations. */
  function MonthlyActivations(rs: seq<Reading>): (r: seq<Grouping.Bucket>)
    ensures forall i :: 0 <= i < |r| ==> r[i].count > 0
    ensures forall i, j :: 0 <= i < j < |r| ==> r[i].key < r[j].key
    ensures forall i :: 0 <= i < |r| ==> r[i].count == |Filter(rs, Within(Active, MonthOf, r[i].key))|
  {
    var ks := Column(Filter(rs, Active), MonthOf);
    var r := Grouping.CountByKey(ks);
    forall i | 0 <= i < |r|
      ensures r[i].count == |Filter(rs, Within(Active, MonthOf, r[i].key))|
    {
      OccurrencesOfSelection(rs, Active, MonthOf, r[i].key);
    }
    r
  }

  /** A month is listed exactly when some reading of it has status 1, so
      months without activation are absent. */
  lemma ActivationMonths(rs: seq<Reading>, m: int)
    ensures (exists i :: 0 <= i < |MonthlyActivations(rs)| && MonthlyActivations(rs)[i].key == m)
        <==> exists k :: 0 <= k < |rs| && Active(rs[k]) && MonthOf(rs[k]) == m
  {
    var ks := Column(Filter(rs, Active), MonthOf);
    KeyOfSelection(rs, Active, MonthOf, m);
    assert MonthlyActivations(rs) == Grouping.CountByKey(ks);
    assert m in ks <==> exists i :: 0 <= i < |Grouping.CountByKey(ks)| && Grouping.CountByKey(ks)[i].key == m;
  }

  /** The activation counts add up to the number of readings with status 1. */
  lemma ActivationsTotal(rs: seq<Reading>)
    ensures Grouping.TotalCount(MonthlyActivations(rs)) == |Filter(rs, Active)|
  {
    Grouping.CountByKeyTotal(Column(Filter(rs, Active), MonthOf));
  }

  /** One row of the water-use table: a day, its readings with irrigation on
      and its readings with irrigation off. */
  datatype DayRow = DayRow(day: int, withIrrigation: nat, withoutIrrigation: nat)

  function DayRows(on: seq<int>, off: seq<int>, ds: seq<int>): (r: seq<DayRow>)
    ensures |r| == |ds|
    ensures forall i :: 0 <= i < |ds| ==>
      r[i] == DayRow(ds[i], Grouping.Occurrences(on, ds[i]), Grouping.Occurrences(off, ds[i]))
  {
    if |ds| == 0 then []
    else [DayRow(ds[0], Grouping.Occurrences(on, ds[0]), Grouping.Occurrences(off, ds[0]))] + DayRows(on, off, ds[1..])
  }

  /** The two daily series, `groupby(date).size()` of the readings with
      status 1 and with status 0, joined into one frame: indexed by every day
      that appears in either, ascending, with the missing side filled with 0. */
  function WaterUse(rs: seq<Reading>): (r: seq<DayRow>)
    ensures forall i, j :: 0 <= i < j < |r| ==> r[i].day < r[j].day
    ensures forall i :: 0 <= i < |r| ==>
      && r[i].withIrrigation == |Filter(rs, Within(Active, DayOf, r[i].day))|
      && r[i].withoutIrrigation == |Filter(rs, Within(Idle, DayOf, r[i].day))|
  {
    var on := Column(Filter(rs, Active), DayOf);
    var off := Column(Filter(rs, Idle), DayOf);
    var r := DayRows(on, off, Grouping.DistinctKeys(on + off));
    forall i | 0 <= i < |r|
      ensures r[i].withIrrigation == |Filter(rs, Within(Active, DayOf, r[i].day))|
      ensures r[i].withoutIrrigation == |Filter(rs, Within(Idle, DayOf, r[i].day))|
    {
      OccurrencesOfSelection(rs, Active, DayOf, r[i].day);
      OccurrencesOfSelection(rs, Idle, DayOf, r[i].day);
    }
    r
  }

  /** The days of the status 1 readings followed by those of the status 0 readings. */
  function StatusDays(rs: seq<Reading>): seq<int>
  {
    Column(Filter(rs, Active), DayOf) + Column(Filter(rs, Idle), DayOf)
  }

  lemma WaterUseRowDays(rs: seq<Reading>)
    ensures |WaterUse(rs)| == |Grouping.DistinctKeys(StatusDays(rs))|
    ensures forall i :: 0 <= i < |WaterUse(rs)| ==> WaterUse(rs)[i].day == Grouping.DistinctKeys(StatusDays(rs))[i]
  {
    var on := Column(Filter(rs, Active), DayOf);
    var off := Column(Filter(rs, Idle), DayOf);
    assert WaterUse(rs) == DayRows(on, off, Grouping.DistinctKeys(on + off));
  }

  lemma StatusDaysMembers(rs: seq<Reading>, d: int)
    ensures d in StatusDays(rs) <==> exists k :: 0 <= k < |rs| && Recorded(rs[k]) && DayOf(rs[k]) == d
  {
    KeyOfSelection(rs, Active, DayOf, d);
    KeyOfSelection(rs, Idle, DayOf, d);
  }

  /** A day is listed exactly when some reading of that day has status 0 or 1. */
  lemma WaterUseDays(rs: seq<Reading>, d: int)
    ensures (exists i :: 0 <= i < |WaterUse(rs)| && WaterUse(rs)[i].day == d)
        <==> exists k :: 0 <= k < |rs| && Recorded(rs[k]) && DayOf(rs[k]) == d
  {
    var ds := Grouping.DistinctKeys(StatusDays(rs));
    WaterUseRowDays(rs);
    StatusDaysMembers(rs, d);
    if d in ds {
      var i :| 0 <= i < |ds| && ds[i] == d;
      assert WaterUse(rs)[i].day == d;
    }
  }

  /** Status 0 and status 1 readings of a day together are that day's
      recorded readings. */
  lemma {:induction false} SplitByStatus(rs: seq<Reading>, d: int)
    ensures |Filter(rs, Within(Active, DayOf, d))| + |Filter(rs, Within(Idle, DayOf, d))|
         == |Filter(rs, Within(Recorded, DayOf, d))|
  {
    if |rs| > 0 {
      var init := rs[..|rs| - 1];
      var x := rs[|rs| - 1];
      assert rs == init + [x];
      SplitByStatus(init, d);
      FilterSnoc(init, x, Within(Active, DayOf, d));
      FilterSnoc(init, x, Within(Idle, DayOf, d));
      FilterSnoc(init, x, Within(Recorded, DayOf, d));
    }
  }

  /** On every listed day, readings with and without irrigation add up to the
      day's readings with status 0 or 1. */
  lemma WaterUseCounts(rs: seq<Reading>, i: int)
    requires 0 <= i < |WaterUse(rs)|
    ensures WaterUse(rs)[i].withIrrigation + WaterUse(rs)[i].withoutIrrigation
         == |Filter(rs, Within(Recorded, DayOf, WaterUse(rs)[i].day))|
  {
    SplitByStatus(rs, WaterUse(rs)[i].day);
  }

  /** A side with no reading on a listed day shows 0 there. */
  lemma WaterUseZeroFill(rs: seq<Reading>, i: int)
    requires 0 <= i < |WaterUse(rs)|
    ensures (forall k :: 0 <= k < |rs| && DayOf(rs[k]) == WaterUse(rs)[i].day ==> !Active(rs[k])) ==>
      WaterUse(rs)[i].withIrrigation == 0
    ensures (forall k :: 0 <= k < |rs| && DayOf(rs[k]) == WaterUse(rs)[i].day ==> !Idle(rs[k])) ==>
      WaterUse(rs)[i].withoutIrrigation == 0
  {
    var d := WaterUse(rs)[i].day;
    OccurrencesOfSelection(rs, Active, DayOf, d);
    OccurrencesOfSelection(rs, Idle, DayOf, d);
    KeyOfSelection(rs, Active, DayOf, d);
    KeyOfSelection(rs, Idle, DayOf, d);
    Grouping.OccurrencesPositive(Column(Filter(rs, Active), DayOf), d);
    Grouping.OccurrencesPositive(Column(Filter(rs, Idle), DayOf), d);
  }

  /** Three readings with irrigation on 2024-01-01 and one without on
      2024-01-02 give the series (3, 0) and (0, 1). */
  lemma WaterUseExample(a: Reading, b: Reading, c: Reading, d: Reading)
    requires a.at.year == 2024 && a.at.month == 1 && a.at.day == 1 && a.irrigation == 1.0
    requires b.at.year == 2024 && b.at.month == 1 && b.at.day == 1 && b.irrigation == 1.0
    requires c.at.year == 2024 && c.at.month == 1 && c.at.day == 1 && c.irrigation == 1.0
    requires d.at.year == 2024 && d.at.month == 1 && d.at.day == 2 && d.irrigation == 0.0
    ensures WaterUse([a, b, c, d]) == [DayRow(20240101, 3, 0), DayRow(20240102, 0, 1)]
  {
    var rs := [a, b, c, d];
    var day1 := 20240101;
    var day2 := 20240102;
    ExampleSelections(a, b, c, d);
    var on := Column(Filter(rs, Active), DayOf);
    var off := Column(Filter(rs, Idle), DayOf);
    assert on == [day1, day1, day1] && off == [day2];
    ExampleDays(day1, day2);
    ExampleCounts(day1, day2);
  }

  lemma ExampleSelections(a: Reading, b: Reading, c: Reading, d: Reading)
    requires a.irrigation == 1.0 && b.irrigation == 1.0 && c.irrigation == 1.0 && d.irrigation == 0.0
    ensures Filter([a, b, c, d], Active) == [a, b, c]
    ensures Filter([a, b, c, d], Idle) == [d]
  {
    assert [] + [a] == [a] && [a] + [b] == [a, b] && [a, b] + [c] == [a, b, c] && [a, b, c] + [d] == [a, b, c, d];
    FilterSnoc([], a, Active);
    FilterSnoc([a], b, Active);
    FilterSnoc([a, b], c, Active);
    FilterSnoc([a, b, c], d, Active);
    FilterSnoc([], a, Idle);
    FilterSnoc([a], b, Idle);
    FilterSnoc([a, b], c, Idle);
    FilterSnoc([a, b, c], d, Idle);
  }

  lemma ExampleDays(x: int, y: int)
    requires x < y
    ensures Grouping.DistinctKeys([x, x, x] + [y]) == [x, y]
  {
    var ks := [x, x, x] + [y];
    assert ks[..3] == [x, x, x] && [x, x, x][..2] == [x, x] && [x, x][..1] == [x] && [x][..0] == [];
    assert Grouping.DistinctKeys([x]) == [x];
    assert Grouping.DistinctKeys([x, x]) == [x];
    assert Grouping.DistinctKeys([x, x, x]) == [x];
    assert [x][1..] == [];
    assert Grouping.InsertKey([], y) == [y];
    assert Grouping.InsertKey([x], y) == [x, y];
    assert Grouping.DistinctKeys(ks) == Grouping.InsertKey(Grouping.DistinctKeys(ks[..3]), y);
  }

  lemma ExampleCounts(x: int, y: int)
    requires x != y
    ensures DayRows([x, x, x], [y], [x, y]) == [DayRow(x, 3, 0), DayRow(y, 0, 1)]
  {
    assert Grouping.Occurrences([y], x) == 0 by {
      Grouping.OccurrencesPositive([y], x);
    }
    assert Grouping.Occurrences([x, x, x], y) == 0 by {
      Grouping.OccurrencesPositive([x, x, x], y);
    }
    assert Grouping.Occurrences([y], y) == 1 by {
      assert [] + [y] == [y];
      Grouping.OccurrencesAppend([], y, y);
    }
    assert Grouping.Occurrences([x, x, x], x) == 3 by {
      assert [] + [x] == [x] && [x] + [x] == [x, x] && [x, x] + [x] == [x, x, x];
      Grouping.OccurrencesAppend([], x, x);
      Grouping.OccurrencesAppend([x], x, x);
      Grouping.OccurrencesAppend([x, x], x, x);
    }
  }

  /** Humidity within [40, 60] and pH within [6.0, 7.5], bounds included. */
  predicate IdealHumidity(r: Reading) { 40.0 <= r.humidity <= 60.0 }
  predicate IdealPh(r: Reading) { 6.0 <= r.ph <= 7.5 }
  predicate IdealBoth(r: Reading) { IdealHumidity(r) && IdealPh(r) }
  predicate IdealEither(r: Reading) { IdealHumidity(r) || IdealPh(r) }

  /** The two ideal-condition metrics: how many readings have ideal humidity
      and how many have ideal pH. */
  function IdealCounts(rs: seq<Reading>): (r: (nat, nat))
    ensures r.0 == |set i | 0 <= i < |rs| && IdealHumidity(rs[i])|
    ensures r.1 == |set i | 0 <= i < |rs| && IdealPh(rs[i])|
    ensures r.0 <= |rs| && r.1 <= |rs|
  {
    FilterCountsPositions(rs, IdealHumidity);
    FilterCountsPositions(rs, IdealPh);
    assert Positions(rs, IdealHumidity) == set i | 0 <= i < |rs| && IdealHumidity(rs[i]);
    assert Positions(rs, IdealPh) == set i | 0 <= i < |rs| && IdealPh(rs[i]);
    (|Filter(rs, IdealHumidity)|, |Filter(rs, IdealPh)|)
  }

  /** The two filters are independent: the readings ideal in both plus those
      ideal in either add up to the two counts, so one reading may count in
      both, one or neither. */
  lemma {:induction false} IdealCountsIndependent(rs: seq<Reading>)
    ensures IdealCounts(rs).0 + IdealCounts(rs).1 == |Filter(rs, IdealBoth)| + |Filter(rs, IdealEither)|
  {
    if |rs| > 0 {
      var init := rs[..|rs| - 1];
      var x := rs[|rs| - 1];
      assert rs == init + [x];
      IdealCountsIndependent(init);
      FilterSnoc(init, x, IdealHumidity);
      FilterSnoc(init, x, IdealPh);
      FilterSnoc(init, x, IdealBoth);
      FilterSnoc(init, x, IdealEither);
    }
  }

  /** Humidities 35, 45, 55 and 65 give two ideal readings. */
  lemma IdealHumidityExample(a: Reading, b: Reading, c: Reading, d: Reading)
    requires a.humidity == 35.0 && b.humidity == 45.0 && c.humidity == 55.0 && d.humidity == 65.0
    ensures IdealCounts([a, b, c, d]).0 == 2
  {
    assert [] + [a] == [a] && [a] + [b] == [a, b] && [a, b] + [c] == [a, b, c] && [a, b, c] + [d] == [a, b, c, d];
    FilterSnoc([], a, IdealHumidity);
    FilterSnoc([a], b, IdealHumidity);
    FilterSnoc([a, b], c, IdealHumidity);
    FilterSnoc([a, b, c], d, IdealHumidity);
  }
}

=== FILE: sensor_store.dfy ===
/** The sqlite reading store of the sensor dashboards, as a small state
    machine.  Both dashboard generations share one design and differ only in
    the table and column names (`sensor_data` with `created_at` in the first,
    `tbl_LEITURA` with `ltr_DATA` in the second), so one model serves both.
    The database file, the reading table, the export file and the module's
    `DB_INITIALIZED` flag are the state; the schema script and the clock are
    parameters. */
module SensorStore {
  import opened Basics
  import Calendar

  /** A value sqlite stores in a column: NULL, a number, or text. */
  datatype Value = Null | Num(x: real) | Text(s: string)

  /** The six caller-supplied columns of one reading, in insert order. */
  datatype Fields = Fields(humidity: Value, temperature: Value, ph: Value,
                           nutrientP: Value, nutrientK: Value, irrigation: Value)

  /** A stored reading: the auto-assigned key, the six values, and the
      timestamp the store assigned on insert. */
  datatype Row = Row(id: nat, fields: Fields, createdAt: Calendar.Timestamp)

  /** The database file: absent, present with size 0, or holding a database. */
  datatype DbFile = Missing | Empty | Populated

  /** `table` is the reading table when the database has one; `export` is the
      last CSV export, if any; `initialized` is `DB_INITIALIZED`. */
  datatype Store = Store(file: DbFile, table: Option<seq<Row>>, initialized: bool, exported: Option<seq<Row>>)

  /** No file, or an empty one, holds no table. */
  predicate Wellformed(s: Store)
  {
    s.file != Populated ==> s.table.None?
  }

  /** The store when the process starts. */
  function Start(file: DbFile, table: Option<seq<Row>>, exported: Option<seq<Row>>): (s: Store)
    requires file != Populated ==> table.None?
    ensures Wellformed(s) && !s.initialized
  {
    Store(file, table, false, exported)
  }

  datatype StoreError = SchemaFileMissing | NoSuchTable

  /** The store after an operation, with the operation's result or error. */
  datatype Step<T> = Step(store: Store, result: Result<T, StoreError>)

  /** `initialize_database`: when the file is missing or empty, read the schema
      script (failing if it does not exist) and run it, which creates the
      empty reading table; otherwise do nothing. */
  function Initialize(s: Store, schemaFileExists: bool): (r: Result<Store, StoreError>)
    requires Wellformed(s)
    ensures Wellformed(s) ==> (r.Ok? ==> Wellformed(r.value))
    ensures s.file == Populated ==> r == Ok(s)
    ensures s.file != Populated ==>
      (r.Ok? <==> schemaFileExists) &&
      (r.Ok? ==> r.value == s.(file := Populated, table := Some([])))
  {
    if s.file == Missing || s.file == Empty then
      if !schemaFileExists then Err(SchemaFileMissing)
      else Ok(s.(file := Populated, table := Some([])))
    else Ok(s)
  }

  /** Running the initialisation a second time changes nothing. */
  lemma InitializeIdempotent(s: Store, schemaFileExists: bool)
    requires Wellformed(s)
    requires Initialize(s, schemaFileExists).Ok?
    ensures Initialize(Initialize(s, schemaFileExists).value, schemaFileExists) == Initialize(s, schemaFileExists)
  {
  }

  /** `sqlite3.connect`: opening a missing file creates it, empty. */
  function Open(s: Store): (r: Store)
    requires Wellformed(s)
    ensures Wellformed(r)
    ensures r.table == s.table && r.initialized == s.initialized && r.exported == s.exported
    ensures r.file != Missing
    ensures s.file != Missing ==> r == s
  {
    if s.file == Missing then s.(file := Empty) else s
  }

  /** `connect`: the first call initialises the database and only then sets
      the flag; later calls skip initialisation.  A failing initialisation
      leaves everything, the flag included, as it was. */
  function Connect(s: Store, schemaFileExists: bool): (r: Result<Store, StoreError>)
    requires Wellformed(s)
    ensures r.Ok? ==> Wellformed(r.value) && r.value.initialized && r.value.exported == s.exported
    ensures r.Err? <==> !s.initialized && s.file != Populated && !schemaFileExists
    ensures s.initialized ==> r == Ok(Open(s))
    ensures s.file == Populated ==> r.Ok? && r.value.table == s.table
  {
    if !s.initialized then
      match Initialize(s, schemaFileExists)
      case Err(e) => Err(e)
      case Ok(s1) => Ok(Open(s1.(initialized := true)))
    else Ok(Open(s))
  }

  /** Once set, the flag stays set: a connected store connects again without
      touching the schema script. */
  lemma FlagIsOneWay(s: Store, schemaFileExists: bool, again: bool)
    requires Wellformed(s)
    requires Connect(s, schemaFileExists).Ok?
    ensures Connect(Connect(s, schemaFileExists).value, again).Ok?
    ensures Connect(Connect(s, schemaFileExists).value, again).value == Connect(s, schemaFileExists).value
  {
  }

  function MaxId(t: seq<Row>): (m: nat)
    ensures forall i :: 0 <= i < |t| ==> t[i].id <= m
  {
    if |t| == 0 then 0
    else
      var rest := MaxId(t[1..]);
      assert forall i :: 1 <= i < |t| ==> t[i] == t[1..][i - 1];
      if t[0].id > rest then t[0].id else rest
  }

  /** The key sqlite assigns to the next row: one more than the largest in use. */
  function NextId(t: seq<Row>): (id: nat)
    ensures forall i :: 0 <= i < |t| ==> t[i].id < id
  {
    MaxId(t) + 1
  }

  /** `save_sensor_data`: connect, then insert one row with the six values,
      a fresh key and the current time `now`.  Without a reading table the
      insert fails but the connection's effects remain. */
  function Save(s: Store, schemaFileExists: bool, fields: Fields, now: Calendar.Timestamp): (r: Step<()>)
    requires Wellformed(s)
    ensures Wellformed(r.store)
    ensures r.result.Ok? <==> Connect(s, schemaFileExists).Ok? && Connect(s, schemaFileExists).value.table.Some?
    ensures r.result == Err(SchemaFileMissing) <==> Connect(s, schemaFileExists).Err?
    ensures r.result == Err(NoSuchTable) <==> Connect(s, schemaFileExists).Ok? && Connect(s, schemaFileExists).value.table.None?
    ensures r.result.Ok? ==> s.initialized || s.file == Populated || schemaFileExists
    ensures r.result.Ok? ==> r.store == Connect(s, schemaFileExists).value.(table := r.store.table)
    ensures r.result.Ok? ==>
      var before := Connect(s, schemaFileExists).value.table.value;
      && r.store.table.Some?
      && |r.store.table.value| == |before| + 1
      && r.store.table.value[..|before|] == before
      && r.store.table.value[|before|].fields == fields
      && r.store.table.value[|before|].createdAt == now
      && (forall i :: 0 <= i < |before| ==> before[i].id < r.store.table.value[|before|].id)
    ensures r.result == Err(SchemaFileMissing) ==> r.store == s
    ensures r.result == Err(NoSuchTable) ==> Connect(s, schemaFileExists) == Ok(r.store) && r.store.table.None?
  {
    match Connect(s, schemaFileExists)
    case Err(e) => Step(s, Err(e))
    case Ok(c) =>
      match c.table
      case None => Step(c, Err(NoSuchTable))
      case Some(t) =>
        var row := Row(NextId(t), fields, now);
        assert (t + [row])[..|t|] == t;
        Step(c.(table := Some(t + [row])), Ok(()))
  }

  /** Keys grow strictly along the table. */
  predicate IdsIncreasing(t: seq<Row>)
  {
    forall i, j :: 0 <= i < j < |t| ==> t[i].id < t[j].id
  }

  /** Timestamps never decrease along the table. */
  predicate Chronological(t: seq<Row>)
  {
    forall i, j :: 0 <= i < j < |t| ==> Calendar.Instant(t[i].createdAt) <= Calendar.Instant(t[j].createdAt)
  }

  /** The store's invariants on its table: unique keys that grow in insertion
      order, and timestamps that never decrease with the key when the clock
      never runs backwards. */
  lemma SaveKeepsOrder(s: Store, schemaFileExists: bool, fields: Fields, now: Calendar.Timestamp)
    requires Wellformed(s)
    requires Save(s, schemaFileExists, fields, now).result.Ok?
    requires s.table.Some? ==> IdsIncreasing(s.table.value) && Chronological(s.table.value)
    requires s.table.Some? ==> forall i :: 0 <= i < |s.table.value| ==>
      Calendar.Instant(s.table.value[i].createdAt) <= Calendar.Instant(now)
    ensures IdsIncreasing(Save(s, schemaFileExists, fields, now).store.table.value)
    ensures Chronological(Save(s, schemaFileExists, fields, now).store.table.value)
  {
    var c := Connect(s, schemaFileExists).value;
    assert s.table.Some? ==> c.table == s.table;
  }

  /** Descending by timestamp, as `ORDER BY <timestamp> DESC` returns rows. */
  predicate Descending(t: seq<Row>)
  {
    forall i, j :: 0 <= i < j < |t| ==> Calendar.Instant(t[i].createdAt) >= Calendar.Instant(t[j].createdAt)
  }

  function InsertDescending(row: Row, t: seq<Row>): (r: seq<Row>)
    requires Descending(t)
    ensures Descending(r)
    ensures multiset(r) == multiset(t) + multiset{row}
    ensures |r| == |t| + 1
    ensures r[0] == row || (|t| > 0 && r[0] == t[0])
  {
    if |t| == 0 || Calendar.Instant(row.createdAt) >= Calendar.Instant(t[0].createdAt) then
      [row] + t
    else
      var rest := InsertDescending(row, t[1..]);
      assert t == [t[0]] + t[1..];
      assert Calendar.Instant(t[0].createdAt) >= Calendar.Instant(rest[0].createdAt);
      [t[0]] + rest
  }

  /** Every row of the table, ordered by timestamp descending (rows with equal
      timestamps may come in any order; this is one such order). */
  function SortDescending(t: seq<Row>): (r: seq<Row>)
    ensures Descending(r)
    ensures multiset(r) == multiset(t)
  {
    if |t| == 0 then []
    else
      assert t == [t[0]] + t[1..];
      InsertDescending(t[0], SortDescending(t[1..]))
  }

  /** A fetched row: the stored row and its derived month bucket. */
  datatype Fetched = Fetched(row: Row, month: int)

  /** The stored rows of a fetch, without their months. */
  function Rows(fs: seq<Fetched>): (t: seq<Row>)
    ensures |t| == |fs|
    ensures forall i :: 0 <= i < |fs| ==> t[i] == fs[i].row
  {
    if |fs| == 0 then [] else [fs[0].row] + Rows(fs[1..])
  }

  function WithMonth(t: seq<Row>): (r: seq<Fetched>)
    ensures |r| == |t|
    ensures forall i :: 0 <= i < |t| ==> r[i] == Fetched(t[i], Calendar.MonthKey(t[i].createdAt))
  {
    if |t| == 0 then [] else [Fetched(t[0], Calendar.MonthKey(t[0].createdAt))] + WithMonth(t[1..])
  }

  /** `fetch_sensor_data`: connect, read every row ordered by timestamp
      descending, export exactly those rows to the CSV file, then add each
      row's month.  The table itself is not changed. */
  function Fetch(s: Store, schemaFileExists: bool): (r: Step<seq<Fetched>>)
    requires Wellformed(s)
    ensures Wellformed(r.store)
    ensures r.result.Ok? <==> Connect(s, schemaFileExists).Ok? && Connect(s, schemaFileExists).value.table.Some?
    ensures r.result == Err(SchemaFileMissing) <==> Connect(s, schemaFileExists).Err?
    ensures r.result == Err(NoSuchTable) <==> Connect(s, schemaFileExists).Ok? && Connect(s, schemaFileExists).value.table.None?
    ensures r.result.Ok? ==>
      var c := Connect(s, schemaFileExists).value;
      var rows := Rows(r.result.value);
      && c.table.Some?
      && r.store == c.(exported := Some(rows))
      && multiset(rows) == multiset(c.table.value)
      && Descending(rows)
      && (forall i :: 0 <= i < |r.result.value| ==>
            r.result.value[i].month == Calendar.MonthKey(r.result.value[i].row.createdAt))
    ensures r.result == Err(SchemaFileMissing) ==> r.store == s
    ensures r.result == Err(NoSuchTable) ==> Connect(s, schemaFileExists) == Ok(r.store) && r.store.table.None?
  {
    match Connect(s, schemaFileExists)
    case Err(e) => Step(s, Err(e))
    case Ok(c) =>
      match c.table
      case None => Step(c, Err(NoSuchTable))
      case Some(t) =>
        var rows := SortDescending(t);
        var fetched := WithMonth(rows);
        assert Rows(fetched) == rows;
        Step(c.(exported := Some(rows)), Ok(fetched))
  }

  /** An empty table fetches as no rows, without an error. */
  lemma FetchEmptyStore(s: Store, schemaFileExists: bool)
    requires Wellformed(s)
    requires s.table == Some([])
    ensures Fetch(s, schemaFileExists).result == Ok([])
  {
    var rows := SortDescending([]);
    assert |rows| == 0 by { assert |multiset(rows)| == 0; }
  }

  /** A fresh database fetches as no rows once the schema script exists. */
  lemma FetchFreshDatabase(s: Store)
    requires Wellformed(s)
    requires !s.initialized && s.file != Populated
    ensures Fetch(s, true).result == Ok([])
    ensures Fetch(s, true).store.initialized
  {
    FetchEmptyStore(Open(s.(file := Populated, table := Some([]), initialized := true)), true);
  }

  /** A saved reading is among the rows fetched afterwards, and nothing else
      new is. */
  lemma SaveThenFetch(s: Store, schemaFileExists: bool, fields: Fields, now: Calendar.Timestamp)
    requires Wellformed(s)
    requires Save(s, schemaFileExists, fields, now).result.Ok?
    ensures
      var saved := Save(s, schemaFileExists, fields, now);
      var before := Connect(s, schemaFileExists).value.table.value;
      var fetched := Fetch(saved.store, schemaFileExists);
      && fetched.result.Ok?
      && multiset(Rows(fetched.result.value)) == multiset(before) + multiset{Row(NextId(before), fields, now)}
      && |fetched.result.value| == |before| + 1
  {
    var saved := Save(s, schemaFileExists, fields, now);
    var before := Connect(s, schemaFileExists).value.table.value;
    var after := saved.store.table.value;
    assert after == before + [Row(NextId(before), fields, now)];
    assert saved.store.initialized;
    var fetched := Fetch(saved.store, schemaFileExists);
    assert Connect(saved.store, schemaFileExists) == Ok(saved.store);
    var rows := Rows(fetched.result.value);
    assert |multiset(rows)| == |multiset(after)|;
  }
}

=== FILE: subscriber.dfy ===
/** The MQTT side of the second dashboard: the fake reading generator that
    the publisher sends every cycle, and the subscriber's `on_message`, which
    validates a payload and hands its six readings to the store.  The broker,
    the network loop and `print` are left out; the clock and the random draws
    are parameters. */
module Subscriber {
  import opened Basics
  import Calendar
  import SensorStore

  /** A decoded JSON document.  An object keeps its members in the order they
      were written. */
  datatype Json = JNull | JBool(b: bool) | JNum(x: real) | JStr(s: string)
                | JArray(items: seq<Json>) | JObject(members: seq<(string, Json)>)

  /** The keys `on_message` reads, in the order it reads them. */
  const RequiredKeys: seq<string> :=
    ["ltr_UMIDADE", "ltr_TEMPERATURA", "ltr_PH", "ltr_NUTRIENTE_P", "ltr_NUTRIENTE_K", "ltr_STATUS_IRRIGACAO"]

  /** `payload[key]` on a decoded object: when a key is written twice the
      later member wins, as in the dictionary `json.loads` builds. */
  function Lookup(members: seq<(string, Json)>, key: string): (r: Option<Json>)
    ensures r.None? <==> forall i :: 0 <= i < |members| ==> members[i].0 != key
    ensures r.Some? ==> exists i :: 0 <= i < |members| && members[i] == (key, r.value)
  {
    if |members| == 0 then None
    else
      var last := members[|members| - 1];
      var init := members[..|members| - 1];
      assert forall i :: 0 <= i < |init| ==> init[i] == members[i];
      if last.0 == key then Some(last.1) else Lookup(init, key)
  }

  /** The first listed key the object lacks (the KeyError), if any. */
  function FirstMissing(members: seq<(string, Json)>, keys: seq<string>): (r: Option<string>)
    ensures r.None? <==> forall i :: 0 <= i < |keys| ==> Lookup(members, keys[i]).Some?
  {
    if |keys| == 0 then None
    else if Lookup(members, keys[0]).None? then Some(keys[0])
    else
      assert forall i :: 1 <= i < |keys| ==> keys[i] == keys[1..][i - 1];
      FirstMissing(members, keys[1..])
  }

  /** The reported key is absent, and every key listed before it is present. */
  lemma {:induction false} FirstMissingIsFirst(members: seq<(string, Json)>, keys: seq<string>)
    requires FirstMissing(members, keys).Some?
    ensures exists i :: (0 <= i < |keys| && keys[i] == FirstMissing(members, keys).value
      && Lookup(members, keys[i]).None?
      && forall j :: 0 <= j < i ==> Lookup(members, keys[j]).Some?)
  {
    if Lookup(members, keys[0]).Some? {
      var rest := keys[1..];
      FirstMissingIsFirst(members, rest);
      var i :| 0 <= i < |rest| && rest[i] == FirstMissing(members, rest).value
        && Lookup(members, rest[i]).None?
        && forall j :: 0 <= j < i ==> Lookup(members, rest[j]).Some?;
      assert keys[i + 1] == rest[i];
      assert forall j :: 1 <= j < i + 1 ==> keys[j] == rest[j - 1];
    }
  }

  /** How sqlite binds a decoded JSON value: null as NULL, a boolean as the
      integer 0 or 1, numbers and strings as themselves; an array or object
      cannot be bound. */
  function ToValue(j: Json): (r: Option<SensorStore.Value>)
    ensures r.None? <==> j.JArray? || j.JObject?
    ensures j.JNum? ==> r == Some(SensorStore.Num(j.x))
    ensures j.JBool? ==> r == Some(SensorStore.Num(if j.b then 1.0 else 0.0))
  {
    match j
    case JNull => Some(SensorStore.Null)
    case JBool(b) => Some(SensorStore.Num(if b then 1.0 else 0.0))
    case JNum(x) => Some(SensorStore.Num(x))
    case JStr(s) => Some(SensorStore.Text(s))
    case _ => None
  }

  /** What `on_message` did: stored the reading, reported a missing field, or
      caught some other exception. */
  datatype Outcome = Stored | MissingField(key: string) | Failed

  datatype Handled = Handled(store: SensorStore.Store, outcome: Outcome)

  /** The six readings of an object that has every required key, in insert
      order, when all of them can be bound. */
  function ReadFields(members: seq<(string, Json)>): (r: Option<SensorStore.Fields>)
    requires FirstMissing(members, RequiredKeys).None?
    ensures r.Some? <==> forall i :: 0 <= i < 6 ==> ToValue(Lookup(members, RequiredKeys[i]).value).Some?
  {
    var vs := seq(6, i requires 0 <= i < 6 => ToValue(Lookup(members, RequiredKeys[i]).value));
    if forall i :: 0 <= i < 6 ==> vs[i].Some? then
      Some(SensorStore.Fields(vs[0].value, vs[1].value, vs[2].value, vs[3].value, vs[4].value, vs[5].value))
    else None
  }

  /** `on_message`: decode the payload (`None` when it is not valid UTF-8
      JSON), read the six required keys in order, and save them.  A missing
      key is reported; every other failure (a payload that is not an object,
      a value sqlite cannot bind, a failing store) is caught.  The handler
      never raises and stores at most one row. */
  function OnMessage(s: SensorStore.Store, schemaFileExists: bool, payload: Option<Json>, now: Calendar.Timestamp): (r: Handled)
    requires SensorStore.Wellformed(s)
    ensures SensorStore.Wellformed(r.store)
    ensures r.outcome.Stored? ==>
      && payload.Some? && payload.value.JObject?
      && FirstMissing(payload.value.members, RequiredKeys).None?
      && ReadFields(payload.value.members).Some?
      && r == Handled(SensorStore.Save(s, schemaFileExists, ReadFields(payload.value.members).value, now).store, Stored)
    ensures r.outcome.MissingField? ==>
      && payload.Some? && payload.value.JObject?
      && r.store == s
      && FirstMissing(payload.value.members, RequiredKeys) == Some(r.outcome.key)
    ensures payload.None? || !payload.value.JObject? ==> r == Handled(s, Failed)
    ensures payload.Some? && payload.value.JObject? && FirstMissing(payload.value.members, RequiredKeys).Some? ==>
      r == Handled(s, MissingField(FirstMissing(payload.value.members, RequiredKeys).value))
    ensures payload.Some? && payload.value.JObject? && FirstMissing(payload.value.members, RequiredKeys).None? ==>
      match ReadFields(payload.value.members)
      case Some(fields) =>
        var saved := SensorStore.Save(s, schemaFileExists, fields, now);
        r.store == saved.store && (r.outcome == Stored <==> saved.result.Ok?) && (r.outcome == Stored || r.outcome == Failed)
      case None => r.outcome == Failed
    ensures !r.outcome.Stored? ==> r.store.table == s.table || (s.table.None? && r.store.table == Some([]))
  {
    if payload.None? || !payload.value.JObject? then Handled(s, Failed)
    else
      var members := payload.value.members;
      match FirstMissing(members, RequiredKeys)
      case Some(key) => Handled(s, MissingField(key))
      case None =>
        match ReadFields(members)
        case Some(fields) =>
          var saved := SensorStore.Save(s, schemaFileExists, fields, now);
          Handled(saved.store, if saved.result.Ok? then Stored else Failed)
        case None =>
          match SensorStore.Connect(s, schemaFileExists)
          case Ok(c) => Handled(c, Failed)
          case Err(_) => Handled(s, Failed)
  }

  /** A stored message adds exactly one row, carrying the six values in the
      order humidity, temperature, pH, P, K, irrigation, and the store's own
      time rather than any timestamp in the payload. */
  lemma StoredAppendsOneRow(s: SensorStore.Store, schemaFileExists: bool, members: seq<(string, Json)>, now: Calendar.Timestamp)
    requires SensorStore.Wellformed(s)
    requires OnMessage(s, schemaFileExists, Some(JObject(members)), now).outcome.Stored?
    ensures
      var before := SensorStore.Connect(s, schemaFileExists).value.table.value;
      var after := OnMessage(s, schemaFileExists, Some(JObject(members)), now).store.table.value;
      var f := after[|before|].fields;
      && |after| == |before| + 1
      && after[..|before|] == before
      && after[|before|].createdAt == now
      && Some(f.humidity) == ToValue(Lookup(members, "ltr_UMIDADE").value)
      && Some(f.temperature) == ToValue(Lookup(members, "ltr_TEMPERATURA").value)
      && Some(f.ph) == ToValue(Lookup(members, "ltr_PH").value)
      && Some(f.nutrientP) == ToValue(Lookup(members, "ltr_NUTRIENTE_P").value)
      && Some(f.nutrientK) == ToValue(Lookup(members, "ltr_NUTRIENTE_K").value)
      && Some(f.irrigation) == ToValue(Lookup(members, "ltr_STATUS_IRRIGACAO").value)
  {
    var fields := ReadFields(members).value;
    var saved := SensorStore.Save(s, schemaFileExists, fields, now);
    assert saved.result.Ok?;
  }

  /** A payload object with all six keys, each bindable, is stored whenever
      the store can insert: one row, appended after the earlier ones, with
      the six values in insert order and the store's time. */
  lemma CompletePayloadStored(s: SensorStore.Store, schemaFileExists: bool, members: seq<(string, Json)>, now: Calendar.Timestamp)
    requires SensorStore.Wellformed(s)
    requires forall i :: 0 <= i < 6 ==> Lookup(members, RequiredKeys[i]).Some?
    requires forall i :: 0 <= i < 6 ==> ToValue(Lookup(members, RequiredKeys[i]).value).Some?
    requires SensorStore.Connect(s, schemaFileExists).Ok? && SensorStore.Connect(s, schemaFileExists).value.table.Some?
    ensures
      var before := SensorStore.Connect(s, schemaFileExists).value.table.value;
      var h := OnMessage(s, schemaFileExists, Some(JObject(members)), now);
      && h.outcome == Stored
      && h.store.table.Some?
      && |h.store.table.value| == |before| + 1
      && h.store.table.value[..|before|] == before
      && h.store.table.value[|before|].createdAt == now
      && var f := h.store.table.value[|before|].fields;
      && Some(f.humidity) == ToValue(Lookup(members, RequiredKeys[0]).value)
      && Some(f.temperature) == ToValue(Lookup(members, RequiredKeys[1]).value)
      && Some(f.ph) == ToValue(Lookup(members, RequiredKeys[2]).value)
      && Some(f.nutrientP) == ToValue(Lookup(members, RequiredKeys[3]).value)
      && Some(f.nutrientK) == ToValue(Lookup(members, RequiredKeys[4]).value)
      && Some(f.irrigation) == ToValue(Lookup(members, RequiredKeys[5]).value)
  {
    assert FirstMissing(members, RequiredKeys).None?;
    var fields := ReadFields(members).value;
    var saved := SensorStore.Save(s, schemaFileExists, fields, now);
    assert saved.result.Ok?;
  }

  /** Only the six required keys matter: two objects that agree on them are
      handled alike, whatever other keys (such as `ltr_DATA`) they carry. */
  lemma {:induction false} ExtraKeysIgnored(s: SensorStore.Store, schemaFileExists: bool,
                         a: seq<(string, Json)>, b: seq<(string, Json)>, now: Calendar.Timestamp)
    requires SensorStore.Wellformed(s)
    requires forall i :: 0 <= i < |RequiredKeys| ==> Lookup(a, RequiredKeys[i]) == Lookup(b, RequiredKeys[i])
    ensures OnMessage(s, schemaFileExists, Some(JObject(a)), now) == OnMessage(s, schemaFileExists, Some(JObject(b)), now)
  {
    FirstMissingDependsOnLookups(a, b, RequiredKeys);
    if FirstMissing(a, RequiredKeys).None? {
      assert ReadFields(a) == ReadFields(b) by {
        assert forall i :: 0 <= i < 6 ==> Lookup(a, RequiredKeys[i]) == Lookup(b, RequiredKeys[i]);
      }
    }
  }

  lemma {:induction false} FirstMissingDependsOnLookups(a: seq<(string, Json)>, b: seq<(string, Json)>, keys: seq<string>)
    requires forall i :: 0 <= i < |keys| ==> Lookup(a, keys[i]) == Lookup(b, keys[i])
    ensures FirstMissing(a, keys) == FirstMissing(b, keys)
  {
    if |keys| > 0 {
      assert forall i :: 0 <= i < |keys[1..]| ==> keys[1..][i] == keys[i + 1];
      FirstMissingDependsOnLookups(a, b, keys[1..]);
    }
  }

  /** The random draws behind one fake reading: three numbers from
      `random.random()` and three picks from [0, 1]. */
  datatype Draw = Draw(u1: real, u2: real, u3: real, p: bool, k: bool, status: bool)

  predicate ValidDraw(d: Draw)
  {
    0.0 <= d.u1 < 1.0 && 0.0 <= d.u2 < 1.0 && 0.0 <= d.u3 < 1.0
  }

  /** `random.uniform(a, b)`, computed as a + (b - a) * u. */
  function Uniform(a: real, b: real, u: real): (x: real)
    requires a <= b && 0.0 <= u < 1.0
    ensures a <= x <= b
  {
    var d := b - a;
    assert d * u <= d by {
      var v := 1.0 - u;
      assert v > 0.0 && d >= 0.0;
      assert d * v >= 0.0;
      assert d * u == d - d * v;
    }
    a + d * u
  }

  /** `round(x, 2)` as the nearest multiple of 0.01. */
  function Round2(x: real): (r: real)
  {
    ((100.0 * x + 0.5).Floor as real) / 100.0
  }

  /** Rounding to two places keeps a value between bounds that are themselves
      multiples of 0.01. */
  lemma Round2Between(x: real, lo: int, hi: int)
    requires lo as real / 100.0 <= x <= hi as real / 100.0
    ensures lo as real / 100.0 <= Round2(x) <= hi as real / 100.0
  {
    var y := 100.0 * x + 0.5;
    assert lo as real + 0.5 <= y <= hi as real + 0.5;
    assert lo <= y.Floor <= hi;
  }

  function Bit(b: bool): (r: real)
    ensures r == 0.0 || r == 1.0
  {
    if b then 1.0 else 0.0
  }

  /** `generate_fake_data`: three rounded uniform readings, three 0/1 flags
      and the UTC time of generation, as the published JSON object. */
  function GenerateFakeData(d: Draw, stamp: string): (j: Json)
    requires ValidDraw(d)
    ensures j.JObject? && |j.members| == 7
    ensures forall i :: 0 <= i < 6 ==> j.members[i].0 == RequiredKeys[i] && j.members[i].1.JNum?
    ensures j.members[6] == ("ltr_DATA", JStr(stamp))
  {
    JObject([
      ("ltr_UMIDADE", JNum(Round2(Uniform(28.9, 55.2, d.u1)))),
      ("ltr_TEMPERATURA", JNum(Round2(Uniform(7.0, 38.3, d.u2)))),
      ("ltr_PH", JNum(Round2(Uniform(6.3, 7.3, d.u3)))),
      ("ltr_NUTRIENTE_P", JNum(Bit(d.p))),
      ("ltr_NUTRIENTE_K", JNum(Bit(d.k))),
      ("ltr_STATUS_IRRIGACAO", JNum(Bit(d.status))),
      ("ltr_DATA", JStr(stamp))
    ])
  }

  /** Generated humidity lies in [28.9, 55.2], temperature in [7, 38.3], pH in
      [6.3, 7.3], and the three flags are 0 or 1. */
  lemma GeneratedWithinBounds(d: Draw, stamp: string)
    requires ValidDraw(d)
    ensures
      var m := GenerateFakeData(d, stamp).members;
      && 28.9 <= m[0].1.x <= 55.2
      && 7.0 <= m[1].1.x <= 38.3
      && 6.3 <= m[2].1.x <= 7.3
      && (forall i :: 3 <= i < 6 ==> m[i].1.x == 0.0 || m[i].1.x == 1.0)
  {
    Round2Between(Uniform(28.9, 55.2, d.u1), 2890, 5520);
    Round2Between(Uniform(7.0, 38.3, d.u2), 700, 3830);
    Round2Between(Uniform(6.3, 7.3, d.u3), 630, 730);
  }

  /** Every generated payload carries all six required keys, so the
      subscriber stores it whenever the store accepts inserts, with exactly
      the generated numbers. */
  lemma GeneratedPayloadIsStored(s: SensorStore.Store, schemaFileExists: bool, d: Draw, stamp: string, now: Calendar.Timestamp)
    requires SensorStore.Wellformed(s)
    requires ValidDraw(d)
    requires SensorStore.Connect(s, schemaFileExists).Ok? && SensorStore.Connect(s, schemaFileExists).value.table.Some?
    ensures
      var m := GenerateFakeData(d, stamp).members;
      var h := OnMessage(s, schemaFileExists, Some(GenerateFakeData(d, stamp)), now);
      && h.outcome == Stored
      && h.store == SensorStore.Save(s, schemaFileExists,
           SensorStore.Fields(SensorStore.Num(m[0].1.x), SensorStore.Num(m[1].1.x), SensorStore.Num(m[2].1.x),
                              SensorStore.Num(m[3].1.x), SensorStore.Num(m[4].1.x), SensorStore.Num(m[5].1.x)), now).store
  {
    GeneratedFieldsRead(d, stamp);
  }

  /** The subscriber reads a generated payload's six numbers, in order. */
  lemma GeneratedFieldsRead(d: Draw, stamp: string)
    requires ValidDraw(d)
    ensures
      var m := GenerateFakeData(d, stamp).members;
      && FirstMissing(m, RequiredKeys).None?
      && ReadFields(m) == Some(SensorStore.Fields(SensorStore.Num(m[0].1.x), SensorStore.Num(m[1].1.x),
           SensorStore.Num(m[2].1.x), SensorStore.Num(m[3].1.x), SensorStore.Num(m[4].1.x), SensorStore.Num(m[5].1.x)))
  {
    var m := GenerateFakeData(d, stamp).members;
    forall i | 0 <= i < 6
      ensures Lookup(m, RequiredKeys[i]) == Some(m[i].1)
    {
      assert m[6].0 != RequiredKeys[i];
      assert forall j :: i < j < 6 ==> m[j].0 != RequiredKeys[i];
      LookupLastOf(m, i);
    }
  }

  /** The last write of a key, at position `i`, is the value looked up:
      earlier members with the same key are overridden. */
  lemma {:induction false} LookupLastOf(members: seq<(string, Json)>, i: int)
    requires 0 <= i < |members|
    requires forall j :: i < j < |members| ==> members[j].0 != members[i].0
    ensures Lookup(members, members[i].0) == Some(members[i].1)
  {
    if i < |members| - 1 {
      var init := members[..|members| - 1];
      assert init[i] == members[i];
      LookupLastOf(init, i);
    }
  }
}
